=== FILE: README.md ===
# Music player core, modelled in Dafny

This project models the logic at the core of a small browser music player.
The player streams previews of tracks, tints its controls with the dominant
colour of the album art, and signs in to Spotify with PKCE (Proof Key for
Code Exchange). Five pieces of it are modelled.

- **Colour extraction** (`color_extractor.dfy`, module `ColorExtractor`).
  - The strided sampling loop over the RGBA bytes of the album art is the method `SumSamples`. It works on an `array` and carries loop invariants.
  - The method `AverageColor` adds the fallback colour `#333333`, the floored averages and the `#rrggbb` formatting.
  - Each method is proved equal to a specification function, `SampleTotals` and `DominantColor`.
  - `generateColorPalette` is the pure function `GenerateColorPalette`.
- **Player state** (`player_context.dfy`, module `PlayerContext`).
  - `playerReducer` is the pure function `Reduce`.
  - The provider's wrappers `playTrack`, `playQueue`, `togglePlayPause`, `nextTrack`, `prevTrack` and `setVolume` are methods of the class `PlayerStore`. Each one updates the `state` field through `Dispatch`.
  - Each wrapper is proved equal to a pure counterpart (`PlayTrackOn`, …), and the queue properties are proved about those counterparts.
- **Sign-in state** (`auth_context.dfy`, module `AuthContext`).
  - `authReducer` is `AuthReduce`.
  - `processAuthCallback` is the method `AuthStore.ProcessAuthCallback`. It dispatches `LOGIN_START` and then one outcome action.
- **Display rules** (`player_controls.dfy`, module `PlayerControls`).
  - `formatTime`, the volume-icon thresholds and the `textColor` contrast rule.
  - The same clock and contrast rules appear at `src/components/TrackList.tsx:15-19` and `src/components/NowPlaying.tsx:14-16`. This one model covers all three places.
- **PKCE helpers** (`spotify_auth.dfy`, module `SpotifyAuth`).
  - The `replace` chain that turns base64 into unpadded base64url.
  - The code verifier and code challenge built with it.
  - The guard in `handleAuthCallback` that fails when no verifier was stored.

Two supporting modules:

- `numerals.dfy` holds `Wrappers` (Option, Result) and `Numerals`. `Numerals` covers the JavaScript conversions the code uses: `toString(radix)`, `padStart`, `parseInt` on a digit prefix, and `String(n)`.
- `types.dfy` holds the records the code passes around.

Some operations depend on things outside the program.

- The random bytes are a given byte sequence of the length the source asks for.
- UTF-8 encoding, SHA-256, `btoa` and the token exchange are function-typed parameters.

Of `btoa` only one fact is assumed (`Base64Shaped`): its output has the length, the `=` padding and the alphabet that section 4 of RFC 4648 gives. A failed image load, and a missing 2D context, are both an absent pixel buffer.

## Model

| member | source | states |
|---|---|---|
| ColorExtractor.Pixels | src/utils/colorExtractor.ts:35-39 | the RGBA buffer as pixels of four bytes each; `PixelAt` and `PixelCount` tie pixel p to bytes 4p to 4p+3 |
| ColorExtractor.Sampled | src/utils/colorExtractor.ts:33 | the pixels the loop visits; `SampledAt` characterises them as exactly the pixels k·stride inside the buffer |
| ColorExtractor.Tally | src/utils/colorExtractor.ts:35-40 | the sums and count over a run of sampled pixels; its contract bounds the count by the run's length and each sum by 255·count, and `TransparentIgnored`, `TallyBetween` and `TallyCountZero` state the rest |
| ColorExtractor.Stride | src/utils/colorExtractor.ts:31 | the stride is at least 1, so the loop advances; with 1000 pixels or more, stride·1000 ≤ pixel count < (stride+1)·1000 |
| ColorExtractor.SampledAt | src/utils/colorExtractor.ts:31-33 | the k-th pixel the loop visits is pixel k·stride, and pixel k·stride is visited exactly when it lies inside the buffer |
| ColorExtractor.SumSamples | src/utils/colorExtractor.ts:27-41 | the strided loop over the byte array returns exactly the channel sums and count of the opaque sampled pixels (`SampleTotals`) |
| ColorExtractor.TallyFromSampled | src/utils/colorExtractor.ts:33-41 | reading the buffer four bytes at a time from pixel p with the stride adds up the same totals as tallying the sampled pixels from p on |
| ColorExtractor.AverageColor | src/utils/colorExtractor.ts:24-53 | the loop, the zero-count fallback, the floored averages and the hex template together produce `DominantColor` of the buffer |
| ColorExtractor.ExtractDominantColor | src/utils/colorExtractor.ts:10-58 | a failed load or a missing 2D context (no buffer) gives `#333333`; a buffer gives `DominantColor` of its bytes; the result is always `#` and six lowercase hex digits |
| ColorExtractor.DominantColor | src/utils/colorExtractor.ts:43-53 | the colour the handler resolves to is always `#` followed by six lowercase hex digits |
| ColorExtractor.TransparentIgnored | src/utils/colorExtractor.ts:35-40 | a sampled pixel with alpha below 128, wherever it sits, changes neither the sums nor the count |
| ColorExtractor.TallyBetween | src/utils/colorExtractor.ts:35-40 | if every opaque sample has a channel within [lo, hi], that channel's sum lies within [lo·count, hi·count] |
| ColorExtractor.FallbackWhenNothingOpaque | src/utils/colorExtractor.ts:43-46 | the count is 0 exactly when no sampled pixel is opaque (an empty buffer included), and then the result is `#333333` |
| ColorExtractor.AverageChannel | src/utils/colorExtractor.ts:48-50 | with at least one opaque sample, each output channel is floor(channel sum / count) and lies between any bounds all opaque samples respect, hence in [0, 255] and between their minimum and maximum |
| ColorExtractor.FormatColor | src/utils/colorExtractor.ts:52 | the template yields `#` and exactly six lowercase hex digits |
| Numerals.PaddedHexIsHex2 | src/utils/colorExtractor.ts:52 | `n.toString(16).padStart(2, '0')` is the two hex digits of the byte, high digit first, zero-padded |
| ColorExtractor.FormatColorRoundTrip | src/utils/colorExtractor.ts:52 | reading the three channels back out of a formatted colour gives the three bytes it was formatted from |
| ColorExtractor.Channel | src/utils/colorExtractor.ts:67-69 | a channel of `#rrggbb` as the value of its two hex digits; `ChannelIsParseInt` proves it is what `parseInt` reads, `FormatColorRoundTrip` that it inverts the formatting |
| ColorExtractor.ChannelIsParseInt | src/utils/colorExtractor.ts:67-69 | `parseInt` of the slices [1,3), [3,5) and [5,7) in base 16 reads exactly the channel values |
| ColorExtractor.GenerateColorPalette | src/utils/colorExtractor.ts:65-89 | `base` is the input unchanged; `text` is `#121212` exactly when `isLight`, otherwise `#ffffff`; the accent is a well-formed colour |
| ColorExtractor.Luma | src/utils/colorExtractor.ts:72 | 299r + 587g + 114b, the brightness scaled by 1000 so that `brightness > 128` is `Luma > 128000` with no division; `PaletteOfBytes` and `LightnessMonotone` state its use |
| ColorExtractor.Darken | src/utils/colorExtractor.ts:78-80 | `Math.max(0, c - 30)` as a byte; `AccentChannels` states the clamp and that the accent never exceeds the base |
| ColorExtractor.PaletteOfBytes | src/utils/colorExtractor.ts:72-81 | for a formatted colour, `isLight` holds exactly when 299r + 587g + 114b > 128000, and the accent is formatted from max(0, c − 30) of each channel |
| ColorExtractor.AccentChannels | src/utils/colorExtractor.ts:78-81 | each accent channel is the base channel less 30, clamped at 0, so the accent is never above the base in any channel |
| ColorExtractor.LightnessMonotone | src/utils/colorExtractor.ts:72-75 | making any channel brighter never turns a light palette dark |
| ColorExtractor.PaletteExamples | src/utils/colorExtractor.ts:65-89 | `#ffffff` gives dark text and accent `#e1e1e1`; `#000000` gives white text and accent `#000000` |
| ColorExtractor.SamplerFeedsPalette | src/utils/colorExtractor.ts:52 | every colour the sampler produces is one the palette can read |
| PlayerContext.JsRem | src/context/PlayerContext.tsx:95 | JavaScript `%` on integers: the Euclidean remainder for a non-negative dividend, a remainder in (−n, 0] for a negative one |
| PlayerContext.NextIndex | src/context/PlayerContext.tsx:95 | `(i + 1) % queue.length`, NaN on an empty queue or from NaN; `NextStep` and `NextRepeated` state where it lands |
| PlayerContext.PrevIndex | src/context/PlayerContext.tsx:104-106 | 0 to `length − 1`, otherwise i − 1; `PrevStep` and `PrevRepeated` state where it lands |
| PlayerContext.TrackAt | src/context/PlayerContext.tsx:99 | `queue[i]` is a track exactly when i is an integer inside the queue, and then it is the track at i |
| PlayerContext.Reduce | src/context/PlayerContext.tsx:64-132 | `playerReducer`, case by case; what it promises is stated by `ReduceFrame`, `ReduceWrites`, `NextStep`, `PrevStep`, `ReducePreservesIndexInRange` and `NextPrevInverse` |
| PlayerContext.ReduceFrame | src/context/PlayerContext.tsx:64-132 | no action changes a field outside the fields it writes; an unknown action returns the state unchanged |
| PlayerContext.ReduceWrites | src/context/PlayerContext.tsx:66-93 | what SET_TRACK, PLAY, PAUSE, SET_VOLUME, SET_QUEUE, SET_PROGRESS, SET_DURATION and SET_DOMINANT_COLOR write into their fields |
| PlayerContext.NextStep | src/context/PlayerContext.tsx:94-102 | NEXT_TRACK with the index in range moves to (i+1) mod length, keeps the index in range, plays `queue[index]` from 0 and keeps the queue |
| PlayerContext.PrevStep | src/context/PlayerContext.tsx:103-113 | PREV_TRACK with the index in range maps 0 to length−1 and i to i−1, keeps the index in range, plays `queue[index]` from 0 and keeps the queue |
| PlayerContext.ReducePreservesIndexInRange | src/context/PlayerContext.tsx:64-132 | every action except SET_QUEUE with an empty list keeps a non-empty queue's index in range |
| PlayerContext.NextPrevInverse | src/context/PlayerContext.tsx:94-113 | PREV after NEXT, and NEXT after PREV, restore the index; with the current track in step, they restore the whole state except progress 0 and playing |
| PlayerContext.NextRepeated | src/context/PlayerContext.tsx:94-102 | k NEXT_TRACK steps land on (i+k) mod length and stay in range |
| PlayerContext.PrevRepeated | src/context/PlayerContext.tsx:103-113 | k PREV_TRACK steps land on (i−k) mod length and stay in range |
| PlayerContext.PlayTrackOn | src/context/PlayerContext.tsx:195-198 | `playTrack` makes a one-track queue, plays that track from 0 with the index in range and in step, and keeps volume, duration and colour |
| PlayerContext.PlayQueueOn | src/context/PlayerContext.tsx:200-205 | `playQueue([])` changes nothing; otherwise the list becomes the queue with index 0, and `tracks[startIndex]` (none when out of range) plays from 0 |
| PlayerContext.PlayQueueDesync | src/context/PlayerContext.tsx:200-205 | started at k > 0 on a list whose track k differs from track 0, `playQueue` plays track k with the index at 0, out of step; the next step plays track 1, not track k+1 |
| PlayerContext.PlayQueueInStep | src/components/TrackList.tsx:21-24 | the corrected `playQueue`: for an in-range start the index is the start, so the index is in range and in step with the track that plays; otherwise it is `playQueue` as written |
| PlayerContext.PlayQueueInStepThenNext | src/context/PlayerContext.tsx:94-102 | after the corrected `playQueue` from track k, the next step plays track (k+1) mod length |
| PlayerContext.TogglePlayPauseOn | src/context/PlayerContext.tsx:207-213 | `togglePlayPause` flips `isPlaying` and changes nothing else |
| PlayerContext.NextTrackOn | src/context/PlayerContext.tsx:215-218 | `nextTrack` does nothing with at most one track queued; otherwise it moves to (i+1) mod length, in range and in step, plays from 0, and changes no other field |
| PlayerContext.PrevTrackOn | src/context/PlayerContext.tsx:220-223 | `prevTrack` does nothing with at most one track queued; otherwise it moves back one place, wrapping 0 to the last, in range and in step, plays from 0, and changes no other field |
| PlayerContext.PlayerStore.constructor | src/context/PlayerContext.tsx:40-49 | the store starts from the initial player state |
| PlayerContext.PlayerStore.Dispatch | src/context/PlayerContext.tsx:64-132 | dispatching replaces the state by the reducer's result |
| PlayerContext.PlayerStore.PlayTrack | src/context/PlayerContext.tsx:195-198 | the two dispatches leave the state `PlayTrackOn` of the old state |
| PlayerContext.PlayerStore.PlayQueue | src/context/PlayerContext.tsx:200-205 | the guard and the two dispatches leave the state `PlayQueueOn` of the old state |
| PlayerContext.PlayerStore.TogglePlayPause | src/context/PlayerContext.tsx:207-213 | the state becomes `TogglePlayPauseOn` of the old state |
| PlayerContext.PlayerStore.NextTrack | src/context/PlayerContext.tsx:215-218 | the state becomes `NextTrackOn` of the old state |
| PlayerContext.PlayerStore.PrevTrack | src/context/PlayerContext.tsx:220-223 | the state becomes `PrevTrackOn` of the old state |
| PlayerContext.PlayerStore.SetVolume | src/context/PlayerContext.tsx:225-227 | only the volume changes, to the given value |
| AuthContext.AuthReduce | src/context/AuthContext.tsx:25-61 | `authReducer`, case by case; what it promises is stated by `ReducePreservesCoherent`, `LoginStartFrame`, `LoginSuccessSignsIn`, `LoginFailureKeepsCredentials`, `LogoutResets` and `LoadingSettles` |
| AuthContext.ReducePreservesCoherent | src/context/AuthContext.tsx:15-61 | the default state is coherent (signed in only with a user and token and no error; no error while loading), and every action keeps a state coherent |
| AuthContext.ApplyAllPreservesCoherent | src/context/AuthContext.tsx:25-61 | any run of actions keeps a coherent state coherent |
| AuthContext.LoginStartFrame | src/context/AuthContext.tsx:27-32 | LOGIN_START sets loading and clears the error, and keeps `isAuthenticated`, user and token |
| AuthContext.LoginSuccessSignsIn | src/context/AuthContext.tsx:33-41 | LOGIN_SUCCESS signs in with the payload's user and token, not loading and without error |
| AuthContext.LoginFailureKeepsCredentials | src/context/AuthContext.tsx:42-48 | LOGIN_FAILURE signs out, stops loading and records the message, but keeps the previous user and token |
| AuthContext.LogoutResets | src/context/AuthContext.tsx:15-57 | LOGOUT gives the context default (`DefaultState`, lines 15-21) whatever the prior state, so it is idempotent |
| AuthContext.LoadingSettles | src/context/AuthContext.tsx:40-59 | every known action except LOGIN_START leaves `loading` false; an unknown action returns the state unchanged |
| AuthContext.Finish | src/context/AuthContext.tsx:79-91 | the closing action is LOGIN_SUCCESS exactly when the exchange succeeded, else LOGIN_FAILURE with the fixed message |
| AuthContext.CallbackActions | src/context/AuthContext.tsx:75-92 | nothing is dispatched unless a non-empty code is present and nobody is signed in; otherwise LOGIN_START, then exactly one of success and failure |
| AuthContext.CallbackOutcome | src/context/AuthContext.tsx:75-92 | from any state not signed in, after the callback the state is coherent and not loading; without a stored verifier no token request is made and sign-in fails; otherwise sign-in succeeds exactly when the exchange does, with its user and token |
| AuthContext.AuthStore.constructor | src/context/AuthContext.tsx:64 | the store starts from the given state |
| AuthContext.AuthStore.Dispatch | src/context/AuthContext.tsx:25-61 | dispatching replaces the state by the reducer's result |
| AuthContext.AuthStore.ProcessAuthCallback | src/context/AuthContext.tsx:71-94 | the method dispatches exactly `CallbackActions`, and the new state is the old one with those actions applied in order |
| PlayerControls.FormatTime | src/components/PlayerControls.tsx:10-14 | `formatTime`: the minutes and the seconds field put into the clock template; `ClockSplit` and `FormatTimeRoundTrip` state what it renders |
| PlayerControls.Trunc | src/components/PlayerControls.tsx:12 | truncation toward zero, the rounding JavaScript's `%` uses; it is `Math.floor` on non-negative numbers |
| PlayerControls.Rem60 | src/components/PlayerControls.tsx:12 | `seconds % 60` with the sign of the dividend; `ClockSplit` proves it lies in [0, 60) for a time ≥ 0 |
| PlayerControls.Clock | src/components/PlayerControls.tsx:13 | the template `${mins}:${pad}${secs}`; `ClockRoundTrip` and `TwoDigitField` state that it reads back |
| PlayerControls.ClockSplit | src/components/PlayerControls.tsx:11-12 | for a time ≥ 0, minutes = floor(s/60) ≥ 0, seconds = floor(s mod 60) in [0, 59], and minutes·60 + seconds = floor(s) |
| PlayerControls.TwoDigitField | src/components/PlayerControls.tsx:13 | the seconds field is always two decimal digits whose value is the seconds |
| PlayerControls.ClockRoundTrip | src/components/PlayerControls.tsx:13 | the clock text for whole minutes and seconds in [0, 59] parses back to minutes·60 + seconds |
| PlayerControls.FormatTimeRoundTrip | src/components/PlayerControls.tsx:10-14 | the text `formatTime` renders for a time s ≥ 0 parses back to floor(s) |
| PlayerControls.IconFor | src/components/PlayerControls.tsx:29-34 | the icon chain: muted at exactly 0, low below 0.3, medium below 0.7, high otherwise; `IconMonotone` and `NegativeVolumeIsLow` state its order and totality |
| PlayerControls.IconMonotone | src/components/PlayerControls.tsx:29-34 | over the slider's range the icon never gets quieter as the volume rises, and it is muted exactly at 0 |
| PlayerControls.NegativeVolumeIsLow | src/components/PlayerControls.tsx:30-31 | the threshold chain is total: even a negative volume gets an icon, the low one |
| PlayerControls.ContrastText | src/components/PlayerControls.tsx:37 | the text colour is `#000` or `#fff`, and `#fff` for an empty colour |
| PlayerControls.HexColorValue | src/components/PlayerControls.tsx:37 | `parseInt` of the six digits of `#rrggbb` is r·65536 + g·256 + b |
| PlayerControls.ContrastByRed | src/components/PlayerControls.tsx:37 | on a well-formed `#rrggbb` the text is `#000` exactly when r ≥ 128, whatever g and b |
| PlayerControls.ContrastDisagreesWithPalette | src/components/PlayerControls.tsx:37 | the controls and the palette can disagree: `#7fffff` is light for the palette but gets white text, `#800000` is dark but gets black text |
| Numerals.ToRadix | src/utils/colorExtractor.ts:52 | `n.toString(radix)`: at least one digit of the radix and no leading zero; `ValueOfToRadix` proves it reads back as n |
| Numerals.ValueOfToRadix | src/utils/colorExtractor.ts:52 | the digits `toString(radix)` prints read back as the number |
| Numerals.PadStart | src/utils/colorExtractor.ts:52 | `padStart(width, fill)`: the string, right-aligned to the width with the fill in front |
| Numerals.Hex2 | src/utils/colorExtractor.ts:52 | the two hex digits of a byte; `Hex2RoundTrip` proves they read back as the byte |
| Numerals.Hex2RoundTrip | src/utils/colorExtractor.ts:52 | the two digits of a byte read back as the byte |
| Numerals.DigitPrefixLength | src/utils/colorExtractor.ts:67-69 | the longest prefix of digits of the radix: all of it digits, and the next character, if any, not a digit |
| Numerals.ParseIntPrefix | src/utils/colorExtractor.ts:67-69 | `parseInt(s, radix)` as the value of the longest digit prefix: NaN (None) exactly when the string is empty or starts with a non-digit |
| Numerals.ParseIntOfDigits | src/utils/colorExtractor.ts:67-69 | on a string made only of digits, `parseInt` reads all of it |
| Numerals.Decimal | src/components/PlayerControls.tsx:13 | `String(n)` of an integer: its decimal digits, after a `-` for a negative one |
| SpotifyAuth.ReplaceAll | src/services/spotifyAuth.ts:11-12 | a global single-character replace keeps the length and changes exactly the matching characters |
| SpotifyAuth.TrimTrailing | src/services/spotifyAuth.ts:13 | only a trailing run of the character is removed, and the result never ends in it |
| SpotifyAuth.UrlChar | src/services/spotifyAuth.ts:11-12 | the character that replaces `+` and `/`, all others kept |
| SpotifyAuth.Base64Url | src/services/spotifyAuth.ts:10-13 | the `replace` chain, used alike at lines 21-24; `Base64UrlChars`, `Base64UrlIdempotent` and `Base64UrlOfShaped` state what it does |
| SpotifyAuth.Base64UrlChars | src/services/spotifyAuth.ts:10-13 | each kept character is the URL-safe counterpart of the one at the same position (`+` to `-`, `/` to `_`); only a trailing run of `=` is dropped; no `+`, `/` or final `=` remains |
| SpotifyAuth.Base64UrlIdempotent | src/services/spotifyAuth.ts:10-13 | applying the rewrite to its own output changes nothing |
| SpotifyAuth.Base64UrlOfShaped | src/services/spotifyAuth.ts:21-24 | on the base64 of n bytes the rewrite removes exactly the (3 − n mod 3) mod 3 pad characters and leaves only base64url characters |
| SpotifyAuth.GenerateCodeVerifier | src/services/spotifyAuth.ts:7-14 | the verifier from 128 random bytes is 171 base64url characters |
| SpotifyAuth.VerifierTooLong | src/services/spotifyAuth.ts:8-13 | that verifier is longer than the 128 characters section 4.1 of RFC 7636 allows |
| SpotifyAuth.GenerateConformingVerifier | src/services/spotifyAuth.ts:8-13 | from 96 random bytes the same rewrite gives exactly 128 unreserved characters, a valid code verifier |
| SpotifyAuth.GenerateCodeChallenge | src/services/spotifyAuth.ts:17-25 | the challenge from a 32-byte SHA-256 digest is 43 base64url characters |
| SpotifyAuth.HandleAuthCallback | src/services/spotifyAuth.ts:90-120 | with no stored verifier, or an empty one, no token request is made and the call fails with the no-verifier error; otherwise exactly one request carries the code and the verifier, and the outcome is the exchange's |

## Left out

- Image loading, the canvas, `drawImage`/`getImageData` and `onerror` (`src/utils/colorExtractor.ts:5-26, 56-58`) are browser work. The sampler starts from a given byte array whose length is a multiple of 4, as `getImageData` guarantees. A failed load or a missing 2D context is `None`, which resolves to `#333333`.
- An image that loads with zero width or height makes `getImageData` (`src/utils/colorExtractor.ts:24`) throw inside `onload`, so the promise never settles and no colour is set. The model has no such path: a buffer always yields a colour, and `getImageData` never returns an empty buffer.
- ColorExtractor.GenerateColorPalette: requires a well-formed `#rrggbb`. The function is only ever given the sampler's output or the `#333333` default. Other input gives partial channel values (`parseInt` reads a leading digit run, so `#1g2233` has red 1) or NaN (`#fff` has no blue digits); that path is not modelled.
- React hooks, rendering and the audio element (`src/context/PlayerContext.tsx:138-193, 229-255`) are I/O. This includes `seekTo`, the `ended` listener and that listener's stale capture of the first `nextTrack`.
- The async ordering of colour results in `src/components/VinylRecord.tsx` is not modelled: a late result can overwrite a newer track's colour.
- AuthContext.AuthStore.ProcessAuthCallback: the exchange is awaited between the two dispatches, and the model assumes nothing else is dispatched meanwhile. The URL query parsing is reduced to an optional `code`. `window.history.replaceState` is left out.
- The token request, the profile fetch and every error they can throw (`src/services/spotifyAuth.ts:97-151`) are one function-typed `exchange` parameter.
- Saving and restoring the sign-in state (`saveAuthState`, `initializeAuthState`, `localStorage`, `sessionStorage`, `JSON.parse`) is storage I/O.
  - The stored verifier is a parameter.
  - The store is constructed from a given state.
- `crypto.getRandomValues` is replaced by a given byte sequence; `crypto.subtle.digest`, `TextEncoder` and `btoa` are function-typed parameters. Of base64 output only the length, the `=` padding and the alphabet of section 4 of RFC 4648 are assumed.
- Volume, progress and duration are reals that are only stored. NaN and infinities are not modelled. The gradient percentages and the `parseFloat` slider handlers in `src/components/PlayerControls.tsx` are left out.
- PlayerControls.FormatTimeRoundTrip: stated for times ≥ 0 only. A negative time renders a negative minutes field and a negative or `0`-prefixed seconds field, which `ParseClock` does not read back. The player never produces such times.
- PlayerControls.ContrastText: `parseInt` is modelled as the value of the longest digit prefix. Leading white space, a sign and a `0x` prefix are not modelled; a colour produced by the sampler or the `#333333` default never has them.
- The track index is an integer or NaN. `playQueue`'s `startIndex` is an integer; a fractional or NaN start index, which indexes to `undefined`, is not modelled.
- `SpotifyTrack` and `SpotifyUser` keep only their `id`, the one field the modelled code and its callers compare; every other field is only carried along and is left out.
- The Deezer services, the Spotify API client and the pages and other components have no logic beyond the modelled helpers and are not part of this model.

## Findings

| source | as written | input that shows it | evidently intended | confidence | as-written member | corrected member |
|---|---|---|---|---|---|---|
| src/services/spotifyAuth.ts:8-13 | the code verifier is the unpadded base64url of 128 random bytes, 171 characters long | any 128 random bytes | a code verifier of 43 to 128 unreserved characters, as section 4.1 of RFC 7636 requires; 96 random bytes give exactly 128 | not executed | SpotifyAuth.VerifierTooLong | SpotifyAuth.GenerateConformingVerifier |
| src/context/PlayerContext.tsx:200-205 | `playQueue(tracks, k)` plays track k but leaves the index at 0, so the next step plays track 1 | a list of three different tracks started at k = 1 from the track list (`src/components/TrackList.tsx:21-24`): the next step replays track 1 instead of playing track 2 | the index set to the start, so the queue carries on after the started track, as the track list's comment says | not executed | PlayerContext.PlayQueueDesync | PlayerContext.PlayQueueInStep |

=== FILE: auth_context.dfy ===
/**
 * The sign-in state machine: `authReducer` and the dispatch sequence the
 * provider runs when the page is opened with an authorization code.
 */
module AuthContext {
  import opened Wrappers
  import opened Types
  import SpotifyAuth

  /** The actions the reducer knows, and any other action type it is sent. */
  datatype AuthAction =
    | LoginStart
    | LoginSuccess(user: SpotifyUser, accessToken: string)
    | LoginFailure(message: string)
    | Logout
    | Other(kind: string)

  /** The state the context starts from when nothing is stored. */
  const DefaultState: AuthState := AuthState(false, None, None, false, None)

  /** The message shown whenever the callback fails, whatever the cause. */
  const FailureMessage: string := "Authentication failed. Please try again."

  /** `authReducer`. */
  function AuthReduce(s: AuthState, a: AuthAction): AuthState
  {
    match a
    case LoginStart => s.(loading := true, error := None)
    case LoginSuccess(user, token) =>
      s.(isAuthenticated := true, user := Some(user), accessToken := Some(token), loading := false, error := None)
    case LoginFailure(message) => s.(isAuthenticated := false, loading := false, error := Some(message))
    case Logout => s.(isAuthenticated := false, user := None, accessToken := None, loading := false, error := None)
    case Other(_) => s
  }

  /**
   * A state the sign-in flow can be in: signed in only with a user and a
   * token and without an error, and no error while a sign-in is under way.
   */
  predicate Coherent(s: AuthState)
  {
    && (s.isAuthenticated ==> s.user.Some? && s.accessToken.Some? && s.error.None?)
    && (s.loading ==> s.error.None?)
  }

  /** The default state is coherent and every action keeps a state coherent. */
  lemma ReducePreservesCoherent(s: AuthState, a: AuthAction)
    ensures Coherent(DefaultState)
    ensures Coherent(s) ==> Coherent(AuthReduce(s, a))
  {
  }

  /** Signing out forgets everything: the result is the default, whatever came before. */
  lemma LogoutResets(s: AuthState, t: AuthState)
    ensures AuthReduce(s, Logout) == DefaultState
    ensures AuthReduce(s, Logout) == AuthReduce(t, Logout)
    ensures AuthReduce(AuthReduce(s, Logout), Logout) == AuthReduce(s, Logout)
  {
  }

  /** Starting a sign-in raises `loading` and clears the error, and touches nothing else. */
  lemma LoginStartFrame(s: AuthState)
    ensures var t := AuthReduce(s, LoginStart);
      t.loading && t.error.None? &&
      t.isAuthenticated == s.isAuthenticated && t.user == s.user && t.accessToken == s.accessToken
  {
  }

  /** A success signs in with the payload's user and token and settles. */
  lemma LoginSuccessSignsIn(s: AuthState, user: SpotifyUser, token: string)
    ensures var t := AuthReduce(s, LoginSuccess(user, token));
      t.isAuthenticated && t.user == Some(user) && t.accessToken == Some(token) && !t.loading && t.error.None?
  {
  }

  /** A failure signs out and records the message, but keeps the user and token it had. */
  lemma LoginFailureKeepsCredentials(s: AuthState, message: string)
    ensures var t := AuthReduce(s, LoginFailure(message));
      !t.isAuthenticated && !t.loading && t.error == Some(message) &&
      t.user == s.user && t.accessToken == s.accessToken
  {
  }

  /** Every known action but `LOGIN_START` leaves `loading` false; an unknown one changes nothing. */
  lemma LoadingSettles(s: AuthState, a: AuthAction)
    ensures !a.LoginStart? && !a.Other? ==> !AuthReduce(s, a).loading
    ensures a.Other? ==> AuthReduce(s, a) == s
  {
  }

  /** The state after a run of actions. */
  function ApplyAll(s: AuthState, actions: seq<AuthAction>): AuthState
    decreases |actions|
  {
    if actions == [] then s else ApplyAll(AuthReduce(s, actions[0]), actions[1..])
  }

  lemma ApplyTwo(s: AuthState, a: AuthAction, b: AuthAction)
    ensures ApplyAll(s, [a, b]) == AuthReduce(AuthReduce(s, a), b)
  {
    var t := AuthReduce(s, a);
    assert [a, b][1..] == [b];
    assert ApplyAll(t, [b]) == ApplyAll(AuthReduce(t, b), []) by {
      assert [b][1..] == [];
    }
  }

  /** Coherence survives any run of actions. */
  lemma {:induction false} ApplyAllPreservesCoherent(s: AuthState, actions: seq<AuthAction>)
    requires Coherent(s)
    ensures Coherent(ApplyAll(s, actions))
    decreases |actions|
  {
    if actions != [] {
      ReducePreservesCoherent(s, actions[0]);
      ApplyAllPreservesCoherent(AuthReduce(s, actions[0]), actions[1..]);
    }
  }

  /** `code && ...`: a missing or empty `code` parameter is falsy. */
  predicate HasCode(code: Option<string>)
  {
    code.Some? && code.value != ""
  }

  /** The action that ends a callback, from how the exchange went. */
  function Finish(outcome: Result<SpotifyAuth.Login, string>): (a: AuthAction)
    ensures a.LoginSuccess? || a == LoginFailure(FailureMessage)
    ensures a.LoginSuccess? <==> outcome.Ok?
  {
    match outcome
    case Ok(login) => LoginSuccess(login.user, login.accessToken)
    case Err(_) => LoginFailure(FailureMessage)
  }

  /**
   * The actions `processAuthCallback` dispatches: none unless there is a code
   * and nobody is signed in; otherwise `LOGIN_START` then exactly one of
   * success and failure.
   */
  function CallbackActions(
    s: AuthState,
    code: Option<string>,
    storedVerifier: Option<string>,
    exchange: SpotifyAuth.TokenRequest -> Result<SpotifyAuth.Login, string>): (sent: seq<AuthAction>)
    ensures sent == [] <==> !HasCode(code) || s.isAuthenticated
    ensures sent != [] ==>
      |sent| == 2 && sent[0] == LoginStart && (sent[1].LoginSuccess? || sent[1] == LoginFailure(FailureMessage))
  {
    if HasCode(code) && !s.isAuthenticated then
      [LoginStart, Finish(SpotifyAuth.HandleAuthCallback(code.value, storedVerifier, exchange).outcome)]
    else []
  }

  /**
   * After the callback, from any state that is not signed in and with a
   * code: the state is coherent and nothing is loading; without a stored
   * verifier no token is requested and the sign-in fails; otherwise it
   * succeeds exactly when the exchange does, with the user and token the
   * exchange returned.
   */
  lemma CallbackOutcome(
    s: AuthState,
    code: Option<string>,
    storedVerifier: Option<string>,
    exchange: SpotifyAuth.TokenRequest -> Result<SpotifyAuth.Login, string>)
    requires HasCode(code) && !s.isAuthenticated
    ensures var t := ApplyAll(s, CallbackActions(s, code, storedVerifier, exchange));
      var run := SpotifyAuth.HandleAuthCallback(code.value, storedVerifier, exchange);
      && Coherent(t)
      && !t.loading
      && (storedVerifier.None? || storedVerifier.value == "" ==>
            run.requests == [] && !t.isAuthenticated && t.error == Some(FailureMessage))
      && (t.isAuthenticated <==> run.outcome.Ok?)
      && (run.outcome.Ok? ==> t.user == Some(run.outcome.value.user) && t.accessToken == Some(run.outcome.value.accessToken))
      && (run.outcome.Err? ==> t.error == Some(FailureMessage) && t.user == s.user && t.accessToken == s.accessToken)
  {
    var sent := CallbackActions(s, code, storedVerifier, exchange);
    ApplyTwo(s, LoginStart, sent[1]);
  }

  /** The provider's store: the state `useReducer` holds. */
  class AuthStore {
    var state: AuthState

    constructor(initial: AuthState)
      ensures state == initial
    {
      state := initial;
    }

    method Dispatch(a: AuthAction)
      modifies this
      ensures state == AuthReduce(old(state), a)
    {
      state := AuthReduce(state, a);
    }

    /**
     * `processAuthCallback`. `code` is the `code` query parameter; the
     * exchange is awaited between the two dispatches, and nothing else is
     * dispatched meanwhile.
     */
    method ProcessAuthCallback(
      code: Option<string>,
      storedVerifier: Option<string>,
      exchange: SpotifyAuth.TokenRequest -> Result<SpotifyAuth.Login, string>)
      returns (sent: seq<AuthAction>)
      modifies this
      ensures sent == CallbackActions(old(state), code, storedVerifier, exchange)
      ensures state == ApplyAll(old(state), sent)
    {
      sent := [];
      if HasCode(code) && !state.isAuthenticated {
        ghost var start := state;
        Dispatch(LoginStart);
        var run := SpotifyAuth.HandleAuthCallback(code.value, storedVerifier, exchange);
        var finish := Finish(run.outcome);
        Dispatch(finish);
        sent := [LoginStart, finish];
        ApplyTwo(start, LoginStart, finish);
      }
    }
  }
}

=== FILE: color_extractor.dfy ===
/**
 * Dominant-colour extraction from album art and the palette derived from it.
 *
 * The image loading and canvas drawing are browser work; here the sampler
 * starts from the RGBA bytes `getImageData` returns, and a failed load is an
 * absent buffer.
 */
module ColorExtractor {
  import opened Wrappers
  import opened Numerals

  /** The colour used whenever nothing could be sampled. */
  const Fallback: string := "#333333"

  /** `#rrggbb` with lowercase digits: the form the sampler produces. */
  predicate IsCanonicalColor(s: string)
  {
    |s| == 7 && s[0] == '#' && forall i :: 1 <= i < 7 ==> IsLowerHexDigit(s[i])
  }

  /** `#rrggbb` with hex digits in either case: what the palette can read. */
  predicate IsHexColor(s: string)
  {
    |s| == 7 && s[0] == '#' && AllDigits(s[1..], 16)
  }

  lemma CanonicalIsHex(s: string)
    requires IsCanonicalColor(s)
    ensures IsHexColor(s)
  {
    forall i | 0 <= i < 6
      ensures IsDigit(s[1..][i], 16)
    {
      assert IsLowerHexDigit(s[i + 1]);
    }
  }

  /**
   * Channel `k` (0 red, 1 green, 2 blue) of a hex colour: the value of its two
   * digits (`ChannelIsParseInt` shows it is what `parseInt` reads from them).
   */
  function Channel(s: string, k: nat): (v: Byte)
    requires IsHexColor(s) && k < 3
  {
    assert IsDigit(s[1..][2 * k], 16) && IsDigit(s[1..][2 * k + 1], 16);
    16 * DigitValue(s[1 + 2 * k]).value + DigitValue(s[2 + 2 * k]).value
  }

  /** `parseInt(s.slice(1 + 2k, 3 + 2k), 16)` reads exactly the channel. */
  lemma ChannelIsParseInt(s: string, k: nat)
    requires IsHexColor(s) && k < 3
    ensures ParseIntPrefix(s[1 + 2 * k..3 + 2 * k], 16) == Some(Channel(s, k))
  {
    var digits := s[1 + 2 * k..3 + 2 * k];
    assert digits == s[1..][2 * k..2 * k + 2];
    ParseIntOfDigits(digits, 16);
    assert digits[..1][..0] == [];
    assert digits[..1] == [s[1 + 2 * k]];
    assert ValueOf(digits[..1], 16) == DigitValue(s[1 + 2 * k]).value;
    assert ValueOf(digits, 16) == ValueOf(digits[..1], 16) * 16 + DigitValue(s[2 + 2 * k]).value;
  }

  /**
   * The template `#${r.toString(16).padStart(2, '0')}...` over three bytes
   * (`PaddedHexIsHex2` shows each part is `Hex2`).
   */
  function FormatColor(r: Byte, g: Byte, b: Byte): (s: string)
    ensures IsCanonicalColor(s)
  {
    "#" + Hex2(r) + Hex2(g) + Hex2(b)
  }

  /** Reading the three channels back out of a formatted colour gives the bytes it was made from. */
  lemma FormatColorRoundTrip(r: Byte, g: Byte, b: Byte)
    ensures IsHexColor(FormatColor(r, g, b))
    ensures Channel(FormatColor(r, g, b), 0) == r
    ensures Channel(FormatColor(r, g, b), 1) == g
    ensures Channel(FormatColor(r, g, b), 2) == b
  {
    var s := FormatColor(r, g, b);
    CanonicalIsHex(s);
  }

  // ---------------------------------------------------------------------
  // Sampling

  /** One RGBA pixel of the raster. */
  datatype Pixel = Pixel(r: Byte, g: Byte, b: Byte, a: Byte)

  /** Running channel sums and the number of pixels that contributed to them. */
  datatype Totals = Totals(r: nat, g: nat, b: nat, count: nat)

  /** The pixels of an RGBA buffer, four bytes each. */
  function Pixels(data: seq<Byte>): seq<Pixel>
    requires |data| % 4 == 0
  {
    seq(|data| / 4, p requires 0 <= p < |data| / 4 =>
      Pixel(data[4 * p], data[4 * p + 1], data[4 * p + 2], data[4 * p + 3]))
  }

  lemma PixelCount(data: seq<Byte>)
    requires |data| % 4 == 0
    ensures |data| == 4 * |Pixels(data)|
  {
  }

  lemma PixelAt(data: seq<Byte>, p: nat)
    requires |data| % 4 == 0 && 4 * p < |data|
    ensures p < |Pixels(data)| && 4 * p + 3 < |data|
    ensures Pixels(data)[p] == Pixel(data[4 * p], data[4 * p + 1], data[4 * p + 2], data[4 * p + 3])
  {
  }

  /** `Math.max(1, Math.floor(pixelCount / 1000))`: sample about a thousand pixels. */
  function Stride(pixelCount: nat): (s: nat)
    ensures 1 <= s
    ensures pixelCount >= 1000 ==> s * 1000 <= pixelCount < (s + 1) * 1000
  {
    if pixelCount / 1000 > 1 then pixelCount / 1000 else 1
  }

  /** Every `stride`-th pixel, starting with the first: the pixels the loop visits. */
  function Sampled(px: seq<Pixel>, stride: nat): seq<Pixel>
    requires 1 <= stride
    decreases |px|
  {
    if px == [] then []
    else if |px| <= stride then [px[0]]
    else [px[0]] + Sampled(px[stride..], stride)
  }

  /** The `k`-th sample is pixel `k * stride`, and every such pixel is sampled. */
  lemma {:induction false} SampledAt(px: seq<Pixel>, stride: nat, k: nat)
    requires 1 <= stride
    ensures k < |Sampled(px, stride)| <==> k * stride < |px|
    ensures k < |Sampled(px, stride)| ==> Sampled(px, stride)[k] == px[k * stride]
    decreases |px|
  {
    if px != [] && |px| > stride && k > 0 {
      SampledAt(px[stride..], stride, k - 1);
      assert (k - 1) * stride + stride == k * stride;
    } else if k > 0 {
      assert k * stride >= stride by {
        assert k * stride == (k - 1) * stride + stride;
      }
    }
  }

  /** What one pixel adds to the totals: nothing when it is nearly transparent. */
  function Contribution(p: Pixel): Totals
  {
    if p.a < 128 then Totals(0, 0, 0, 0) else Totals(p.r, p.g, p.b, 1)
  }

  function Add(t: Totals, u: Totals): Totals
  {
    Totals(t.r + u.r, t.g + u.g, t.b + u.b, t.count + u.count)
  }

  predicate Opaque(p: Pixel)
  {
    p.a >= 128
  }

  /** The totals over a run of sampled pixels. */
  function Tally(ps: seq<Pixel>): (t: Totals)
    ensures t.count <= |ps|
    ensures t.r <= 255 * t.count && t.g <= 255 * t.count && t.b <= 255 * t.count
  {
    if ps == [] then Totals(0, 0, 0, 0) else Add(Contribution(ps[0]), Tally(ps[1..]))
  }

  lemma TallyCons(p: Pixel, rest: seq<Pixel>)
    ensures Tally([p] + rest) == Add(Contribution(p), Tally(rest))
  {
    assert ([p] + rest)[1..] == rest;
  }

  /** Nothing is counted exactly when no pixel of the run is opaque. */
  lemma {:induction false} TallyCountZero(ps: seq<Pixel>)
    ensures Tally(ps).count == 0 <==> forall i :: 0 <= i < |ps| ==> !Opaque(ps[i])
    decreases |ps|
  {
    if ps != [] {
      var tail := ps[1..];
      TallyCountZero(tail);
      assert Tally(ps) == Add(Contribution(ps[0]), Tally(tail));
      if forall i :: 0 <= i < |ps| ==> !Opaque(ps[i]) {
        assert forall j :: 0 <= j < |tail| ==> tail[j] == ps[j + 1];
      }
    }
  }

  /** A nearly transparent pixel, wherever it sits among the samples, changes nothing. */
  lemma {:induction false} TransparentIgnored(before: seq<Pixel>, p: Pixel, after: seq<Pixel>)
    requires !Opaque(p)
    ensures Tally(before + [p] + after) == Tally(before + after)
    decreases |before|
  {
    if before == [] {
      assert before + [p] + after == [p] + after;
      assert before + after == after;
      TallyCons(p, after);
    } else {
      TransparentIgnored(before[1..], p, after);
      ConsBoth(before, [p] + after);
      ConsBoth(before, after);
      assert before + [p] + after == before + ([p] + after);
      assert before[1..] + [p] + after == before[1..] + ([p] + after);
    }
  }

  /** Splitting the first element off a concatenation whose left part is not empty. */
  lemma ConsBoth(before: seq<Pixel>, after: seq<Pixel>)
    requires before != []
    ensures Tally(before + after) == Add(Contribution(before[0]), Tally(before[1..] + after))
  {
    assert before + after == [before[0]] + (before[1..] + after);
    TallyCons(before[0], before[1..] + after);
  }

  /** Channel `k` of a pixel and of the totals. */
  function PixelChannel(p: Pixel, k: nat): Byte
    requires k < 3
  {
    if k == 0 then p.r else if k == 1 then p.g else p.b
  }

  function TotalChannel(t: Totals, k: nat): nat
    requires k < 3
  {
    if k == 0 then t.r else if k == 1 then t.g else t.b
  }

  /** If every opaque sample has channel `k` within [lo, hi], so does the sum, scaled by the count. */
  lemma {:induction false} TallyBetween(ps: seq<Pixel>, k: nat, lo: int, hi: int)
    requires k < 3
    requires forall i :: 0 <= i < |ps| && Opaque(ps[i]) ==> lo <= PixelChannel(ps[i], k) <= hi
    ensures lo * Tally(ps).count <= TotalChannel(Tally(ps), k) <= hi * Tally(ps).count
    decreases |ps|
  {
    if ps != [] {
      var tail := ps[1..];
      forall j | 0 <= j < |tail| && Opaque(tail[j])
        ensures lo <= PixelChannel(tail[j], k) <= hi
      {
        assert tail[j] == ps[j + 1];
      }
      TallyBetween(tail, k, lo, hi);
      var rest := Tally(tail);
      var c := rest.count;
      assert Tally(ps) == Add(Contribution(ps[0]), rest);
      if Opaque(ps[0]) {
        assert TotalChannel(Tally(ps), k) == TotalChannel(rest, k) + PixelChannel(ps[0], k);
        assert Tally(ps).count == c + 1;
        BoundsStep(lo, hi, c, TotalChannel(rest, k), PixelChannel(ps[0], k));
      } else {
        assert Tally(ps) == rest;
      }
    }
  }

  lemma BoundsStep(lo: int, hi: int, c: nat, sum: int, x: int)
    requires lo * c <= sum <= hi * c && lo <= x <= hi
    ensures lo * (c + 1) <= sum + x <= hi * (c + 1)
  {
    assert lo * (c + 1) == lo * c + lo;
    assert hi * (c + 1) == hi * c + hi;
  }

  /** The floored average of a sum bounded by `lo * count` and `hi * count` lies in [lo, hi]. */
  lemma AverageBetween(sum: nat, count: nat, lo: int, hi: int)
    requires 0 < count && lo * count <= sum <= hi * count
    ensures lo <= sum / count <= hi
  {
    var q := sum / count;
    assert q * count <= sum < q * count + count;
    if q > hi {
      MultiplyMonotone(hi + 1, q, count);
    }
    if q < lo {
      MultiplyMonotone(q + 1, lo, count);
    }
  }

  lemma MultiplyMonotone(x: int, y: int, c: nat)
    requires x <= y
    ensures x * c <= y * c
  {
  }

  /** The pixels the loop visits in an RGBA buffer. */
  function Samples(data: seq<Byte>): seq<Pixel>
    requires |data| % 4 == 0
  {
    Sampled(Pixels(data), Stride(|data| / 4))
  }

  /** The totals the loop accumulates over an RGBA buffer. */
  function SampleTotals(data: seq<Byte>): Totals
    requires |data| % 4 == 0
  {
    Tally(Samples(data))
  }

  /**
   * What the `onload` handler resolves to for a buffer: the fallback when no
   * sampled pixel is opaque, else the floored per-channel average.
   */
  function DominantColor(data: seq<Byte>): (c: string)
    requires |data| % 4 == 0
    ensures IsCanonicalColor(c)
  {
    var t := SampleTotals(data);
    if t.count == 0 then Fallback
    else
      AverageBetween(t.r, t.count, 0, 255);
      AverageBetween(t.g, t.count, 0, 255);
      AverageBetween(t.b, t.count, 0, 255);
      FormatColor(t.r / t.count, t.g / t.count, t.b / t.count)
  }

  /** The fallback is chosen exactly when no sampled pixel is opaque (an empty buffer included). */
  lemma FallbackWhenNothingOpaque(data: seq<Byte>)
    requires |data| % 4 == 0
    ensures (forall i :: 0 <= i < |Samples(data)| ==> !Opaque(Samples(data)[i])) <==> SampleTotals(data).count == 0
    ensures SampleTotals(data).count == 0 ==> DominantColor(data) == Fallback
  {
    TallyCountZero(Samples(data));
  }

  /**
   * With at least one opaque sample, channel `k` of the result is the floored
   * average of that channel over the opaque samples, and lies between any
   * bounds those samples respect (so between their minimum and maximum).
   */
  lemma AverageChannel(data: seq<Byte>, k: nat, lo: int, hi: int)
    requires |data| % 4 == 0 && k < 3
    requires SampleTotals(data).count > 0
    requires forall i :: 0 <= i < |Samples(data)| && Opaque(Samples(data)[i]) ==>
               lo <= PixelChannel(Samples(data)[i], k) <= hi
    ensures IsHexColor(DominantColor(data))
    ensures Channel(DominantColor(data), k) == TotalChannel(SampleTotals(data), k) / SampleTotals(data).count
    ensures lo <= Channel(DominantColor(data), k) <= hi
  {
    var t := SampleTotals(data);
    AverageBetween(t.r, t.count, 0, 255);
    AverageBetween(t.g, t.count, 0, 255);
    AverageBetween(t.b, t.count, 0, 255);
    var r, g, b := t.r / t.count, t.g / t.count, t.b / t.count;
    assert DominantColor(data) == FormatColor(r, g, b);
    FormatColorRoundTrip(r, g, b);
    assert Channel(DominantColor(data), k) == TotalChannel(t, k) / t.count;
    TallyBetween(Samples(data), k, lo, hi);
    AverageBetween(TotalChannel(t, k), t.count, lo, hi);
  }

  /**
   * The sampling loop of `img.onload`: every `stride`-th pixel, skipping the
   * nearly transparent ones, adds its channels to the sums and one to the count.
   */
  method SumSamples(data: array<Byte>) returns (r: nat, g: nat, b: nat, count: nat)
    requires data.Length % 4 == 0
    ensures Totals(r, g, b, count) == SampleTotals(data[..])
  {
    r, g, b, count := 0, 0, 0, 0;
    var stride := Stride(data.Length / 4);
    var i := 0;
    ghost var bytes := data[..];
    ghost var p, pixelCount := 0, data.Length / 4;
    while i < data.Length
      invariant i == 4 * p && 0 <= p && data.Length == 4 * pixelCount
      invariant var rest := TallyFrom(bytes, p, stride);
        Totals(r + rest.r, g + rest.g, b + rest.b, count + rest.count) == TallyFrom(bytes, 0, stride)
      decreases data.Length - i
    {
      assert p < pixelCount;
      assert data[i] == bytes[4 * p] && data[i + 1] == bytes[4 * p + 1] && data[i + 2] == bytes[4 * p + 2];
      assert data[i + 3] == bytes[4 * p + 3];
      if data[i + 3] >= 128 {
        r := r + data[i];
        g := g + data[i + 1];
        b := b + data[i + 2];
        count := count + 1;
      }
      i := i + 4 * stride;
      p := p + stride;
    }
    TallyFromIsTally(bytes);
  }

  /**
   * The body of `img.onload` from `getImageData` on: the sampling loop, then
   * the fallback when nothing was counted, else the floored averages in hex.
   */
  method AverageColor(data: array<Byte>) returns (color: string)
    requires data.Length % 4 == 0
    ensures color == DominantColor(data[..])
  {
    var r, g, b, count := SumSamples(data);
    if count == 0 {
      return Fallback;
    }
    AverageBetween(r, count, 0, 255);
    AverageBetween(g, count, 0, 255);
    AverageBetween(b, count, 0, 255);
    r, g, b := r / count, g / count, b / count;
    color := FormatColor(r, g, b);
  }

  /** The totals of the samples from pixel `p` on, reading the buffer directly. */
  function TallyFrom(data: seq<Byte>, p: nat, stride: nat): Totals
    requires |data| % 4 == 0 && 1 <= stride
    decreases |data| - 4 * p
  {
    if 4 * p >= |data| then Totals(0, 0, 0, 0)
    else
      var rest := TallyFrom(data, p + stride, stride);
      if data[4 * p + 3] < 128 then rest
      else Totals(rest.r + data[4 * p], rest.g + data[4 * p + 1], rest.b + data[4 * p + 2], rest.count + 1)
  }

  lemma TallyFromIsTally(data: seq<Byte>)
    requires |data| % 4 == 0
    ensures TallyFrom(data, 0, Stride(|data| / 4)) == SampleTotals(data)
  {
    var px := Pixels(data);
    PixelCount(data);
    TallyFromSampled(data, 0, Stride(|data| / 4));
    assert px[0..] == px;
  }

  lemma {:induction false} TallyFromSampled(data: seq<Byte>, p: nat, stride: nat)
    requires |data| % 4 == 0 && 1 <= stride && p <= |data| / 4
    ensures TallyFrom(data, p, stride) == Tally(Sampled(Pixels(data)[p..], stride))
    decreases |data| - 4 * p
  {
    var px := Pixels(data);
    PixelCount(data);
    if p < |px| {
      var next := Min(p + stride, |px|);
      var later := Sampled(px[next..], stride);
      if p + stride <= |px| {
        TallyFromSampled(data, p + stride, stride);
      } else {
        TallyPastEnd(data, p + stride, stride);
        assert px[next..] == [];
      }
      assert TallyFrom(data, p + stride, stride) == Tally(later);
      TallyFromStep(data, p, stride);
      SampledStep(px, p, stride);
      Assemble(px[p], later, TallyFrom(data, p, stride), TallyFrom(data, p + stride, stride), Sampled(px[p..], stride));
    } else {
      assert px[p..] == [];
    }
  }

  /** Totals that add one pixel's contribution to those of a run are the totals of the longer run. */
  lemma Assemble(x: Pixel, later: seq<Pixel>, here: Totals, rest: Totals, whole: seq<Pixel>)
    requires here == Add(Contribution(x), rest) && rest == Tally(later) && whole == [x] + later
    ensures here == Tally(whole)
  {
    TallyCons(x, later);
  }

  lemma TallyPastEnd(data: seq<Byte>, p: nat, stride: nat)
    requires |data| % 4 == 0 && 1 <= stride && |data| <= 4 * p
    ensures TallyFrom(data, p, stride) == Totals(0, 0, 0, 0)
  {
  }

  lemma TallyFromStep(data: seq<Byte>, p: nat, stride: nat)
    requires |data| % 4 == 0 && 1 <= stride && p < |data| / 4
    ensures TallyFrom(data, p, stride) == Add(Contribution(Pixels(data)[p]), TallyFrom(data, p + stride, stride))
  {
    PixelAt(data, p);
    var px := Pixels(data)[p];
    var rest := TallyFrom(data, p + stride, stride);
    assert px.a == data[4 * p + 3];
    if px.a < 128 {
      assert TallyFrom(data, p, stride) == rest;
    } else {
      assert TallyFrom(data, p, stride) == Totals(rest.r + px.r, rest.g + px.g, rest.b + px.b, rest.count + 1);
    }
  }

  /** Sampling from pixel `p` on visits `p`, then carries on from `p + stride`. */
  lemma SampledStep(px: seq<Pixel>, p: nat, stride: nat)
    requires 1 <= stride && p < |px|
    ensures Sampled(px[p..], stride) == [px[p]] + Sampled(px[Min(p + stride, |px|)..], stride)
  {
    var rest := px[p..];
    if |rest| > stride {
      assert rest[stride..] == px[p + stride..];
    } else {
      assert px[Min(p + stride, |px|)..] == [];
    }
  }

  function Min(x: int, y: int): int
  {
    if x <= y then x else y
  }

  /**
   * `extractDominantColor`: None stands for the image failing to load and
   * for the canvas having no 2D context.
   */
  method ExtractDominantColor(image: Option<array<Byte>>) returns (color: string)
    requires image.Some? ==> image.value.Length % 4 == 0
    ensures image.None? ==> color == Fallback
    ensures image.Some? ==> color == DominantColor(image.value[..])
    ensures IsCanonicalColor(color)
  {
    if image.None? {
      return Fallback;
    }
    color := AverageColor(image.value);
  }

  // ---------------------------------------------------------------------
  // Palette

  /** The palette a base colour is shown with. */
  datatype Palette = Palette(base: string, text: string, accent: string, isLight: bool)

  const DarkText: string := "#121212"
  const LightText: string := "#ffffff"

  /** Perceived brightness scaled by 1000: `(r*299 + g*587 + b*114) / 1000 > 128` exactly when this exceeds 128000. */
  function Luma(r: Byte, g: Byte, b: Byte): nat
  {
    299 * r + 587 * g + 114 * b
  }

  /** `Math.max(0, c - 30)`. */
  function Darken(c: Byte): (d: Byte)
  {
    if c >= 30 then c - 30 else 0
  }

  /** `generateColorPalette` over a well-formed `#rrggbb`. */
  function GenerateColorPalette(base: string): (p: Palette)
    requires IsHexColor(base)
    ensures p.base == base
    ensures p.text == DarkText <==> p.isLight
    ensures p.text == DarkText || p.text == LightText
    ensures IsCanonicalColor(p.accent)
  {
    var r, g, b := Channel(base, 0), Channel(base, 1), Channel(base, 2);
    var isLight := Luma(r, g, b) > 128000;
    Palette(base, if isLight then DarkText else LightText, FormatColor(Darken(r), Darken(g), Darken(b)), isLight)
  }

  /** Each accent channel is the base channel less 30, stopped at 0, so never above the base. */
  lemma AccentChannels(base: string, k: nat)
    requires IsHexColor(base) && k < 3
    ensures IsHexColor(GenerateColorPalette(base).accent)
    ensures Channel(GenerateColorPalette(base).accent, k) == if Channel(base, k) >= 30 then Channel(base, k) - 30 else 0
    ensures Channel(GenerateColorPalette(base).accent, k) <= Channel(base, k)
  {
    var r, g, b := Channel(base, 0), Channel(base, 1), Channel(base, 2);
    var accent := GenerateColorPalette(base).accent;
    AccentIsDarkened(base);
    var dr, dg, db := Darken(r), Darken(g), Darken(b);
    assert accent == FormatColor(dr, dg, db);
    FormatColorChannel(dr, dg, db, k);
    var c := Channel(base, k);
    if k == 0 {
      assert Channel(accent, k) == dr;
    } else if k == 1 {
      assert Channel(accent, k) == dg;
    } else {
      assert Channel(accent, k) == db;
    }
  }

  /** Channel `k` of a formatted colour is the `k`-th byte it was formatted from. */
  lemma FormatColorChannel(r: Byte, g: Byte, b: Byte, k: nat)
    requires k < 3
    ensures IsHexColor(FormatColor(r, g, b))
    ensures Channel(FormatColor(r, g, b), k) == if k == 0 then r else if k == 1 then g else b
  {
    FormatColorRoundTrip(r, g, b);
  }

  lemma AccentIsDarkened(base: string)
    requires IsHexColor(base)
    ensures GenerateColorPalette(base).accent ==
      FormatColor(Darken(Channel(base, 0)), Darken(Channel(base, 1)), Darken(Channel(base, 2)))
  {
  }

  /** Brightening any channel of the base never turns a light palette dark. */
  lemma LightnessMonotone(base: string, brighter: string)
    requires IsHexColor(base) && IsHexColor(brighter)
    requires forall k :: 0 <= k < 3 ==> Channel(base, k) <= Channel(brighter, k)
    ensures GenerateColorPalette(base).isLight ==> GenerateColorPalette(brighter).isLight
  {
    assert Channel(base, 0) <= Channel(brighter, 0);
    assert Channel(base, 1) <= Channel(brighter, 1);
    assert Channel(base, 2) <= Channel(brighter, 2);
  }

  /** The palette of a formatted colour, in terms of the bytes it was formatted from. */
  lemma PaletteOfBytes(r: Byte, g: Byte, b: Byte)
    ensures IsHexColor(FormatColor(r, g, b))
    ensures GenerateColorPalette(FormatColor(r, g, b)).isLight == (Luma(r, g, b) > 128000)
    ensures GenerateColorPalette(FormatColor(r, g, b)).accent == FormatColor(Darken(r), Darken(g), Darken(b))
  {
    FormatColorRoundTrip(r, g, b);
  }

  /** White gets dark text and a #e1e1e1 accent; black gets white text and stays black. */
  lemma PaletteExamples()
    ensures GenerateColorPalette("#ffffff") == Palette("#ffffff", "#121212", "#e1e1e1", true)
    ensures GenerateColorPalette("#000000") == Palette("#000000", "#ffffff", "#000000", false)
  {
    WhiteExample();
    BlackExample();
  }

  lemma WhiteExample()
    ensures GenerateColorPalette("#ffffff") == Palette("#ffffff", "#121212", "#e1e1e1", true)
  {
    assert FormatColor(255, 255, 255) == "#ffffff";
    assert FormatColor(225, 225, 225) == "#e1e1e1";
    PaletteOfBytes(255, 255, 255);
  }

  lemma BlackIsFormatted()
    ensures FormatColor(0, 0, 0) == "#000000"
  {
    assert Hex2(0) == "00";
  }

  lemma BlackExample()
    ensures GenerateColorPalette("#000000") == Palette("#000000", "#ffffff", "#000000", false)
  {
    var black := FormatColor(0, 0, 0);
    PaletteOfBytes(0, 0, 0);
    assert GenerateColorPalette(black) == Palette(black, LightText, black, false);
    BlackIsFormatted();
  }

  /** Whatever the sampler resolves to is a colour the palette accepts. */
  lemma SamplerFeedsPalette(data: seq<Byte>)
    requires |data| % 4 == 0
    ensures IsHexColor(DominantColor(data))
    ensures GenerateColorPalette(DominantColor(data)).base == DominantColor(data)
  {
    CanonicalIsHex(DominantColor(data));
  }
}

=== FILE: numerals.dfy ===
/** Option and Result, for values the source leaves undefined and for its thrown errors. */
module Wrappers {
  datatype Option<+T> = None | Some(value: T)

  datatype Result<+T, +E> = Ok(value: T) | Err(error: E)
}

/**
 * The JavaScript number/text conversions the player relies on:
 * `Number.prototype.toString(radix)` for non-negative integers,
 * `String.prototype.padStart`, `parseInt(s, radix)` on a string that starts
 * with a digit (or with none), and `String(n)` for integers.
 */
module Numerals {
  import opened Wrappers

  /** One element of a `Uint8ClampedArray`. */
  type Byte = x: int | 0 <= x < 256

  /** A digit as `toString(16)` prints it: `0`-`9` or a lowercase `a`-`f`. */
  predicate IsLowerHexDigit(c: char)
  {
    '0' <= c <= '9' || 'a' <= c <= 'f'
  }

  /** The lowercase digit that `toString(radix)` prints for `d`. */
  function DigitChar(d: nat): (c: char)
    requires d < 16
    ensures DigitValue(c) == Some(d)
    ensures IsLowerHexDigit(c)
  {
    if d < 10 then ('0' as int + d) as char else ('a' as int + d - 10) as char
  }

  /** The value `parseInt` gives a digit character, in either case; None for any other character. */
  function DigitValue(c: char): (v: Option<nat>)
    ensures v.Some? ==> v.value < 16
    ensures v.Some? <==> ('0' <= c <= '9' || 'a' <= c <= 'f' || 'A' <= c <= 'F')
  {
    if '0' <= c <= '9' then Some(c as int - '0' as int)
    else if 'a' <= c <= 'f' then Some(c as int - 'a' as int + 10)
    else if 'A' <= c <= 'F' then Some(c as int - 'A' as int + 10)
    else None
  }

  predicate IsDigit(c: char, radix: nat)
  {
    DigitValue(c).Some? && DigitValue(c).value < radix
  }

  predicate AllDigits(s: string, radix: nat)
  {
    forall i :: 0 <= i < |s| ==> IsDigit(s[i], radix)
  }

  /** `n.toString(radix)` for a non-negative integer: no leading zero, "0" for zero. */
  function ToRadix(n: nat, radix: nat): (s: string)
    requires 2 <= radix <= 16
    ensures 1 <= |s| && AllDigits(s, radix)
    ensures |s| > 1 ==> s[0] != '0'
    decreases n
  {
    if n < radix then [DigitChar(n)]
    else
      DivideByRadix(n, radix);
      ToRadix(n / radix, radix) + [DigitChar(n % radix)]
  }

  /** Dividing a number of at least `radix` by `radix` leaves a smaller, positive quotient. */
  lemma DivideByRadix(n: nat, radix: nat)
    requires 2 <= radix <= n
    ensures 1 <= n / radix < n && n % radix < radix
    ensures n == n / radix * radix + n % radix
  {
    var q, m := n / radix, n % radix;
    assert q * radix == n - m >= 1;
    ProductBounds(q, radix);
  }

  lemma ProductBounds(q: int, radix: int)
    requires q >= 0 && radix >= 2 && q * radix >= 1
    ensures 1 <= q && 2 * q <= q * radix
  {
  }

  /** The value of a string of digits, most significant digit first. */
  function ValueOf(s: string, radix: nat): nat
    requires AllDigits(s, radix)
  {
    if s == [] then 0 else ValueOf(s[..|s| - 1], radix) * radix + DigitValue(s[|s| - 1]).value
  }

  /** Reading back what `toString(radix)` printed gives the number. */
  lemma {:induction false} ValueOfToRadix(n: nat, radix: nat)
    requires 2 <= radix <= 16
    ensures ValueOf(ToRadix(n, radix), radix) == n
    decreases n
  {
    if n >= radix {
      DivideByRadix(n, radix);
      var s := ToRadix(n, radix);
      assert s[..|s| - 1] == ToRadix(n / radix, radix);
      ValueOfToRadix(n / radix, radix);
    }
  }

  /** `s.padStart(width, fill)` with a one-character fill. */
  function PadStart(s: string, width: nat, fill: char): (r: string)
    ensures |r| == if |s| >= width then |s| else width
    ensures r[|r| - |s|..] == s
    ensures forall i :: 0 <= i < |r| - |s| ==> r[i] == fill
  {
    if |s| >= width then s else seq(width - |s|, _ => fill) + s
  }

  /** The two lowercase hex digits of a byte, most significant first. */
  function Hex2(n: Byte): (s: string)
    ensures |s| == 2 && AllDigits(s, 16)
  {
    [DigitChar(n / 16), DigitChar(n % 16)]
  }

  /** `n.toString(16).padStart(2, '0')` prints exactly the two digits of `Hex2`. */
  lemma PaddedHexIsHex2(n: Byte)
    ensures PadStart(ToRadix(n, 16), 2, '0') == Hex2(n)
  {
    var digits := ToRadix(n, 16);
    if n >= 16 {
      assert digits == ToRadix(n / 16, 16) + [DigitChar(n % 16)];
    }
  }

  /** Two digits read back give the byte they were printed from. */
  lemma Hex2RoundTrip(n: Byte)
    ensures AllDigits(Hex2(n), 16) && ValueOf(Hex2(n), 16) == n
  {
    var s := Hex2(n);
    assert s[..1] == [DigitChar(n / 16)];
    assert ValueOf(s[..1], 16) == n / 16 by {
      assert s[..1][..0] == [];
    }
  }

  /** The length of the longest prefix of `s` made of digits of the radix. */
  function DigitPrefixLength(s: string, radix: nat): (k: nat)
    ensures k <= |s| && AllDigits(s[..k], radix)
    ensures k < |s| ==> !IsDigit(s[k], radix)
  {
    if s == [] || !IsDigit(s[0], radix) then 0
    else
      var k := 1 + DigitPrefixLength(s[1..], radix);
      assert s[..k] == [s[0]] + s[1..][..k - 1];
      k
  }

  /**
   * `parseInt(s, radix)` for a string that does not start with white space,
   * a sign or a "0x": the value of the longest digit prefix, None (NaN) when
   * the first character is not a digit.
   */
  function ParseIntPrefix(s: string, radix: nat): (r: Option<nat>)
    requires 2 <= radix <= 16
    ensures r.None? <==> (s == [] || !IsDigit(s[0], radix))
  {
    var k := DigitPrefixLength(s, radix);
    if k == 0 then None else Some(ValueOf(s[..k], radix))
  }

  /** On a string made only of digits, `parseInt` reads all of it. */
  lemma ParseIntOfDigits(s: string, radix: nat)
    requires 2 <= radix <= 16
    requires 1 <= |s| && AllDigits(s, radix)
    ensures ParseIntPrefix(s, radix) == Some(ValueOf(s, radix))
  {
    DigitsPrefixIsWhole(s, radix);
    assert s[..|s|] == s;
  }

  lemma {:induction false} DigitsPrefixIsWhole(s: string, radix: nat)
    requires AllDigits(s, radix)
    ensures DigitPrefixLength(s, radix) == |s|
    decreases |s|
  {
    if s != [] {
      DigitsPrefixIsWhole(s[1..], radix);
    }
  }

  /** `String(n)` for an integer. */
  function Decimal(n: int): (s: string)
    ensures n >= 0 ==> AllDigits(s, 10)
    ensures n < 0 ==> |s| >= 2 && s[0] == '-' && AllDigits(s[1..], 10)
  {
    if n < 0 then "-" + ToRadix(-n, 10) else ToRadix(n, 10)
  }
}

=== FILE: player_context.dfy ===
/**
 * The playback state machine: `playerReducer` over the player record, and
 * the provider's wrappers that dispatch to it.
 *
 * Volume, progress and duration are stored as given and never computed on
 * here. The track index is a JavaScript number; the one non-integer value it
 * can take, NaN, is a separate case.
 */
module PlayerContext {
  import opened Wrappers
  import opened Types

  /** `currentTrackIndex`: an integer, or NaN after `NEXT_TRACK` on an empty queue. */
  datatype TrackIndex = At(n: int) | NaN

  /** `PlayerState`; `None` stands for `null` and for `undefined`. */
  datatype PlayerState = PlayerState(
    currentTrack: Option<SpotifyTrack>,
    isPlaying: bool,
    volume: real,
    queue: seq<SpotifyTrack>,
    currentTrackIndex: TrackIndex,
    progress: real,
    duration: real,
    dominantColor: string)

  /** `PlayerAction`, plus any other action type the reducer could be sent. */
  datatype PlayerAction =
    | SetTrack(track: Option<SpotifyTrack>)
    | Play
    | Pause
    | SetVolume(volume: real)
    | SetQueue(tracks: seq<SpotifyTrack>)
    | NextTrack
    | PrevTrack
    | SetProgress(progress: real)
    | SetDuration(duration: real)
    | SetDominantColor(color: string)
    | Other(kind: string)

  const InitialState: PlayerState := PlayerState(None, false, 0.7, [], At(0), 0.0, 0.0, "#333333")

  /** JavaScript's `a % n` on integers: the remainder takes the sign of `a`. */
  function JsRem(a: int, n: int): (r: int)
    requires n > 0
    ensures a >= 0 ==> r == a % n
    ensures a < 0 ==> -n < r <= 0
  {
    if a >= 0 then a % n else -((-a) % n)
  }

  /** `(currentTrackIndex + 1) % queue.length`: NaN when the queue is empty. */
  function NextIndex(i: TrackIndex, length: nat): TrackIndex
  {
    match i
    case NaN => NaN
    case At(k) => if length == 0 then NaN else At(JsRem(k + 1, length))
  }

  /** `currentTrackIndex === 0 ? queue.length - 1 : currentTrackIndex - 1`. */
  function PrevIndex(i: TrackIndex, length: nat): TrackIndex
  {
    match i
    case NaN => NaN
    case At(k) => if k == 0 then At(length - 1) else At(k - 1)
  }

  /** `queue[i]`: the track, or `undefined` when the index is outside the queue. */
  function TrackAt(queue: seq<SpotifyTrack>, i: TrackIndex): (t: Option<SpotifyTrack>)
    ensures t.Some? <==> i.At? && 0 <= i.n < |queue|
    ensures t.Some? ==> t.value == queue[i.n]
  {
    match i
    case NaN => None
    case At(k) => if 0 <= k < |queue| then Some(queue[k]) else None
  }

  /** `playerReducer`. */
  function Reduce(s: PlayerState, a: PlayerAction): PlayerState
  {
    match a
    case SetTrack(track) => s.(currentTrack := track, isPlaying := true, progress := 0.0)
    case Play => s.(isPlaying := true)
    case Pause => s.(isPlaying := false)
    case SetVolume(v) => s.(volume := v)
    case SetQueue(tracks) => s.(queue := tracks, currentTrackIndex := At(0))
    case NextTrack =>
      var i := NextIndex(s.currentTrackIndex, |s.queue|);
      s.(currentTrackIndex := i, currentTrack := TrackAt(s.queue, i), progress := 0.0, isPlaying := true)
    case PrevTrack =>
      var i := PrevIndex(s.currentTrackIndex, |s.queue|);
      s.(currentTrackIndex := i, currentTrack := TrackAt(s.queue, i), progress := 0.0, isPlaying := true)
    case SetProgress(p) => s.(progress := p)
    case SetDuration(d) => s.(duration := d)
    case SetDominantColor(c) => s.(dominantColor := c)
    case Other(_) => s
  }

  // ---------------------------------------------------------------------
  // What each action may change

  datatype Field = CurrentTrack | IsPlaying | Volume | Queue | Index | Progress | Duration | DominantColor

  /** The fields each action is meant to write; every other field is kept. */
  function Writes(a: PlayerAction): set<Field>
  {
    match a
    case SetTrack(_) => {CurrentTrack, IsPlaying, Progress}
    case Play => {IsPlaying}
    case Pause => {IsPlaying}
    case SetVolume(_) => {Volume}
    case SetQueue(_) => {Queue, Index}
    case NextTrack => {Index, CurrentTrack, Progress, IsPlaying}
    case PrevTrack => {Index, CurrentTrack, Progress, IsPlaying}
    case SetProgress(_) => {Progress}
    case SetDuration(_) => {Duration}
    case SetDominantColor(_) => {DominantColor}
    case Other(_) => {}
  }

  predicate Agree(s: PlayerState, t: PlayerState, f: Field)
  {
    match f
    case CurrentTrack => s.currentTrack == t.currentTrack
    case IsPlaying => s.isPlaying == t.isPlaying
    case Volume => s.volume == t.volume
    case Queue => s.queue == t.queue
    case Index => s.currentTrackIndex == t.currentTrackIndex
    case Progress => s.progress == t.progress
    case Duration => s.duration == t.duration
    case DominantColor => s.dominantColor == t.dominantColor
  }

  /** No action changes a field outside its footprint; an unknown action changes nothing. */
  lemma ReduceFrame(s: PlayerState, a: PlayerAction, f: Field)
    ensures f !in Writes(a) ==> Agree(s, Reduce(s, a), f)
    ensures a.Other? ==> Reduce(s, a) == s
  {
  }

  /** What each action writes into the fields of its footprint. */
  lemma ReduceWrites(s: PlayerState, a: PlayerAction)
    ensures a.SetTrack? ==>
      Reduce(s, a).currentTrack == a.track && Reduce(s, a).isPlaying && Reduce(s, a).progress == 0.0
    ensures a.Play? ==> Reduce(s, a).isPlaying
    ensures a.Pause? ==> !Reduce(s, a).isPlaying
    ensures a.SetVolume? ==> Reduce(s, a).volume == a.volume
    ensures a.SetQueue? ==> Reduce(s, a).queue == a.tracks && Reduce(s, a).currentTrackIndex == At(0)
    ensures a.SetProgress? ==> Reduce(s, a).progress == a.progress
    ensures a.SetDuration? ==> Reduce(s, a).duration == a.duration
    ensures a.SetDominantColor? ==> Reduce(s, a).dominantColor == a.color
  {
  }

  // ---------------------------------------------------------------------
  // Moving through the queue

  /** The queue is not empty and the index names one of its tracks. */
  predicate IndexInRange(s: PlayerState)
  {
    s.currentTrackIndex.At? && 0 <= s.currentTrackIndex.n < |s.queue|
  }

  /** The current track is the one the index names. */
  predicate Synced(s: PlayerState)
  {
    s.currentTrack == TrackAt(s.queue, s.currentTrackIndex)
  }

  /**
   * On a non-empty queue with the index in range, `NEXT_TRACK` moves to
   * `(i + 1) mod length`, keeps the index in range, starts the track it lands
   * on from the beginning, and leaves the current track in step with the index.
   */
  lemma NextStep(s: PlayerState)
    requires IndexInRange(s)
    ensures var t := Reduce(s, NextTrack);
      && t.currentTrackIndex == At((s.currentTrackIndex.n + 1) % |s.queue|)
      && IndexInRange(t) && Synced(t) && t.currentTrack.Some?
      && t.progress == 0.0 && t.isPlaying && t.queue == s.queue
  {
  }

  /** The same for `PREV_TRACK`, which moves back one place and from 0 to the last track. */
  lemma PrevStep(s: PlayerState)
    requires IndexInRange(s)
    ensures var t := Reduce(s, PrevTrack);
      && t.currentTrackIndex == At(if s.currentTrackIndex.n == 0 then |s.queue| - 1 else s.currentTrackIndex.n - 1)
      && IndexInRange(t) && Synced(t) && t.currentTrack.Some?
      && t.progress == 0.0 && t.isPlaying && t.queue == s.queue
  {
  }

  /** Every action but `SET_QUEUE` with an empty list keeps the index in range. */
  lemma ReducePreservesIndexInRange(s: PlayerState, a: PlayerAction)
    requires IndexInRange(s) && a != SetQueue([])
    ensures IndexInRange(Reduce(s, a))
  {
  }

  /** `PREV_TRACK` undoes `NEXT_TRACK`, and `NEXT_TRACK` undoes `PREV_TRACK`. */
  lemma NextPrevInverse(s: PlayerState)
    requires IndexInRange(s)
    ensures Reduce(Reduce(s, NextTrack), PrevTrack).currentTrackIndex == s.currentTrackIndex
    ensures Reduce(Reduce(s, PrevTrack), NextTrack).currentTrackIndex == s.currentTrackIndex
    ensures Synced(s) ==> Reduce(Reduce(s, NextTrack), PrevTrack) == s.(progress := 0.0, isPlaying := true)
    ensures Synced(s) ==> Reduce(Reduce(s, PrevTrack), NextTrack) == s.(progress := 0.0, isPlaying := true)
  {
    var i, n := s.currentTrackIndex.n, |s.queue|;
    NextStep(s);
    PrevStep(s);
    var next, prev := Reduce(s, NextTrack), Reduce(s, PrevTrack);
    NextStep(prev);
    PrevStep(next);
    if i + 1 < n {
      ModOfSum(i + 1, n, 0, i + 1);
    } else {
      ModOfSum(i + 1, n, 1, 0);
    }
    if i == 0 {
      ModOfSum(n, n, 1, 0);
    } else {
      ModOfSum(i, n, 0, i);
    }
  }

  /** The state after the same action `k` times. */
  function Repeat(s: PlayerState, a: PlayerAction, k: nat): PlayerState
  {
    if k == 0 then s else Reduce(Repeat(s, a, k - 1), a)
  }

  /** `k` steps forward land on `(i + k) mod length`. */
  lemma {:induction false} NextRepeated(s: PlayerState, k: nat)
    requires IndexInRange(s)
    ensures IndexInRange(Repeat(s, NextTrack, k))
    ensures Repeat(s, NextTrack, k).queue == s.queue
    ensures Repeat(s, NextTrack, k).currentTrackIndex == At((s.currentTrackIndex.n + k) % |s.queue|)
  {
    var i, n := s.currentTrackIndex.n, |s.queue|;
    if k == 0 {
      ModOfSum(i, n, 0, i);
    } else {
      NextRepeated(s, k - 1);
      var t := Repeat(s, NextTrack, k - 1);
      assert Repeat(s, NextTrack, k) == Reduce(t, NextTrack);
      NextStep(t);
      var x := i + (k - 1);
      assert t.currentTrackIndex == At(x % n);
      ModSucc(x, n);
      assert x + 1 == i + k;
    }
  }

  /** `k` steps back land on `(i - k) mod length`, counting from the end below zero. */
  lemma {:induction false} PrevRepeated(s: PlayerState, k: nat)
    requires IndexInRange(s)
    ensures IndexInRange(Repeat(s, PrevTrack, k))
    ensures Repeat(s, PrevTrack, k).queue == s.queue
    ensures Repeat(s, PrevTrack, k).currentTrackIndex == At((s.currentTrackIndex.n - k) % |s.queue|)
  {
    var i, n := s.currentTrackIndex.n, |s.queue|;
    if k == 0 {
      ModOfSum(i, n, 0, i);
    } else {
      PrevRepeated(s, k - 1);
      var t := Repeat(s, PrevTrack, k - 1);
      assert Repeat(s, PrevTrack, k) == Reduce(t, PrevTrack);
      PrevStep(t);
      var x := i - (k - 1);
      assert t.currentTrackIndex == At(x % n);
      ModPred(x, n);
      assert x - 1 == i - k;
    }
  }

  lemma ModSucc(x: int, n: int)
    requires n > 0
    ensures (x % n + 1) % n == (x + 1) % n
  {
    var q, r := x / n, x % n;
    if r + 1 < n {
      ModOfSum(x + 1, n, q, r + 1);
      ModOfSum(r + 1, n, 0, r + 1);
    } else {
      ModOfSum(x + 1, n, q + 1, 0);
      ModOfSum(r + 1, n, 1, 0);
    }
  }

  lemma ModPred(x: int, n: int)
    requires n > 0
    ensures (if x % n == 0 then n - 1 else x % n - 1) == (x - 1) % n
  {
    var q, r := x / n, x % n;
    if r == 0 {
      ModOfSum(x - 1, n, q - 1, n - 1);
    } else {
      ModOfSum(x - 1, n, q, r - 1);
    }
  }

  /** A remainder is determined by any quotient-and-remainder split. */
  lemma ModOfSum(x: int, n: int, q: int, r: int)
    requires n > 0 && 0 <= r < n && x == q * n + r
    ensures x % n == r
  {
    var d := q - x / n;
    assert d * n == x % n - r;
    SmallMultiple(d, n);
  }

  lemma SmallMultiple(d: int, n: int)
    requires n > 0 && -n < d * n < n
    ensures d == 0
  {
  }

  // ---------------------------------------------------------------------
  // The provider's wrappers

  /** `playTrack(track)`: a one-track queue, then that track. */
  function PlayTrackOn(s: PlayerState, track: SpotifyTrack): (t: PlayerState)
    ensures t.queue == [track] && t.currentTrack == Some(track)
    ensures IndexInRange(t) && Synced(t)
    ensures t.isPlaying && t.progress == 0.0
    ensures t.volume == s.volume && t.duration == s.duration && t.dominantColor == s.dominantColor
  {
    Reduce(Reduce(s, SetQueue([track])), SetTrack(Some(track)))
  }

  /**
   * `playQueue(tracks, startIndex)`: nothing for an empty list; otherwise
   * the list becomes the queue and `tracks[startIndex]` (undefined when out of
   * range) is played, while the index is left at 0.
   */
  function PlayQueueOn(s: PlayerState, tracks: seq<SpotifyTrack>, startIndex: int): (t: PlayerState)
    ensures tracks == [] ==> t == s
    ensures tracks != [] ==>
      && t.queue == tracks
      && t.currentTrackIndex == At(0)
      && t.currentTrack == (if 0 <= startIndex < |tracks| then Some(tracks[startIndex]) else None)
      && t.isPlaying && t.progress == 0.0
      && t.volume == s.volume && t.duration == s.duration && t.dominantColor == s.dominantColor
  {
    if tracks == [] then s
    else Reduce(Reduce(s, SetQueue(tracks)), SetTrack(TrackAt(tracks, At(startIndex))))
  }

  /**
   * `playQueue` starting anywhere but the first track leaves the index out
   * of step with what is playing, so the next step goes to the second track
   * of the list rather than to the one after the started track.
   */
  lemma PlayQueueDesync(s: PlayerState, tracks: seq<SpotifyTrack>, k: int)
    requires 0 < k < |tracks| && tracks[k] != tracks[0]
    ensures PlayQueueOn(s, tracks, k).currentTrack == Some(tracks[k])
    ensures PlayQueueOn(s, tracks, k).currentTrackIndex == At(0)
    ensures !Synced(PlayQueueOn(s, tracks, k))
    ensures Reduce(PlayQueueOn(s, tracks, k), NextTrack).currentTrack == Some(tracks[1 % |tracks|])
  {
  }

  /**
   * `playQueue` as its caller in the track list means it: the index follows
   * the started track, so the queue carries on after it. It differs from
   * `PlayQueueOn` only in the index, and only for an in-range start other
   * than 0.
   */
  function PlayQueueInStep(s: PlayerState, tracks: seq<SpotifyTrack>, startIndex: int): (t: PlayerState)
    ensures tracks == [] ==> t == s
    ensures !(0 < startIndex < |tracks|) ==> t == PlayQueueOn(s, tracks, startIndex)
    ensures 0 <= startIndex < |tracks| ==>
      && t == PlayQueueOn(s, tracks, startIndex).(currentTrackIndex := At(startIndex))
      && t.currentTrack == Some(tracks[startIndex])
      && IndexInRange(t) && Synced(t)
  {
    var t := PlayQueueOn(s, tracks, startIndex);
    if 0 <= startIndex < |tracks| then t.(currentTrackIndex := At(startIndex)) else t
  }

  /** After the corrected `playQueue` from track `k`, the next step plays track `k + 1`, wrapping to the first. */
  lemma PlayQueueInStepThenNext(s: PlayerState, tracks: seq<SpotifyTrack>, k: int)
    requires 0 <= k < |tracks|
    ensures Reduce(PlayQueueInStep(s, tracks, k), NextTrack).currentTrack == Some(tracks[(k + 1) % |tracks|])
    ensures Reduce(PlayQueueInStep(s, tracks, k), NextTrack).currentTrackIndex == At((k + 1) % |tracks|)
  {
    var t := PlayQueueInStep(s, tracks, k);
    NextStep(t);
  }

  /** `togglePlayPause`: flips `isPlaying` and nothing else. */
  function TogglePlayPauseOn(s: PlayerState): (t: PlayerState)
    ensures t == s.(isPlaying := !s.isPlaying)
  {
    if s.isPlaying then Reduce(s, Pause) else Reduce(s, Play)
  }

  /** `nextTrack`: nothing with fewer than two tracks queued, else `NEXT_TRACK`. */
  function NextTrackOn(s: PlayerState): (t: PlayerState)
    ensures |s.queue| <= 1 ==> t == s
    ensures |s.queue| > 1 && IndexInRange(s) ==>
      && IndexInRange(t) && Synced(t) && t.currentTrackIndex == At((s.currentTrackIndex.n + 1) % |s.queue|)
      && t == s.(currentTrackIndex := t.currentTrackIndex, currentTrack := t.currentTrack, progress := 0.0, isPlaying := true)
  {
    if |s.queue| <= 1 then s
    else
      if IndexInRange(s) then NextStep(s); Reduce(s, NextTrack)
      else Reduce(s, NextTrack)
  }

  /** `prevTrack`: nothing with fewer than two tracks queued, else `PREV_TRACK`. */
  function PrevTrackOn(s: PlayerState): (t: PlayerState)
    ensures |s.queue| <= 1 ==> t == s
    ensures |s.queue| > 1 && IndexInRange(s) ==>
      && IndexInRange(t) && Synced(t)
      && t.currentTrackIndex == At(if s.currentTrackIndex.n == 0 then |s.queue| - 1 else s.currentTrackIndex.n - 1)
      && t == s.(currentTrackIndex := t.currentTrackIndex, currentTrack := t.currentTrack, progress := 0.0, isPlaying := true)
  {
    if |s.queue| <= 1 then s
    else
      if IndexInRange(s) then PrevStep(s); Reduce(s, PrevTrack)
      else Reduce(s, PrevTrack)
  }

  /** The provider's store: the state `useReducer` holds, and the wrappers that dispatch to it. */
  class PlayerStore {
    var state: PlayerState

    constructor()
      ensures state == InitialState
    {
      state := InitialState;
    }

    method Dispatch(a: PlayerAction)
      modifies this
      ensures state == Reduce(old(state), a)
    {
      state := Reduce(state, a);
    }

    method PlayTrack(track: SpotifyTrack)
      modifies this
      ensures state == PlayTrackOn(old(state), track)
    {
      Dispatch(SetQueue([track]));
      Dispatch(SetTrack(Some(track)));
    }

    /** `startIndex` is 0 when the caller leaves it out. */
    method PlayQueue(tracks: seq<SpotifyTrack>, startIndex: int)
      modifies this
      ensures state == PlayQueueOn(old(state), tracks, startIndex)
    {
      if |tracks| == 0 {
        return;
      }
      Dispatch(SetQueue(tracks));
      Dispatch(SetTrack(TrackAt(tracks, At(startIndex))));
    }

    method TogglePlayPause()
      modifies this
      ensures state == TogglePlayPauseOn(old(state))
    {
      if state.isPlaying {
        Dispatch(Pause);
      } else {
        Dispatch(Play);
      }
    }

    method NextTrack()
      modifies this
      ensures state == NextTrackOn(old(state))
    {
      if |state.queue| <= 1 {
        return;
      }
      Dispatch(PlayerAction.NextTrack);
    }

    method PrevTrack()
      modifies this
      ensures state == PrevTrackOn(old(state))
    {
      if |state.queue| <= 1 {
        return;
      }
      Dispatch(PlayerAction.PrevTrack);
    }

    method SetVolume(volume: real)
      modifies this
      ensures state == old(state).(volume := volume)
    {
      Dispatch(PlayerAction.SetVolume(volume));
    }
  }
}

=== FILE: player_controls.dfy ===
/**
 * The display rules of the player controls: the `M:SS` clock, the volume
 * icon, and the text colour chosen against the dominant colour. The same
 * clock and text-colour rules are repeated in the track list and the
 * now-playing bar.
 */
module PlayerControls {
  import opened Wrappers
  import opened Numerals
  import ColorExtractor

  // ---------------------------------------------------------------------
  // The clock

  /** Truncation toward zero, as JavaScript's `%` on numbers uses it. */
  function Trunc(x: real): (t: int)
    ensures x >= 0.0 ==> t == x.Floor
  {
    if x >= 0.0 then x.Floor else -((-x).Floor)
  }

  /** `x % 60` on numbers: the remainder keeps the sign of `x`. */
  function Rem60(x: real): real
  {
    x - 60.0 * (Trunc(x / 60.0) as real)
  }

  /** `formatTime(seconds)`: `Math.floor(seconds / 60)` and `Math.floor(seconds % 60)` in the clock template. */
  function FormatTime(seconds: real): string
  {
    Clock((seconds / 60.0).Floor, Rem60(seconds).Floor)
  }

  /** The template `${mins}:${secs < 10 ? '0' : ''}${secs}`. */
  function Clock(mins: int, secs: int): string
  {
    Decimal(mins) + ":" + (if secs < 10 then "0" else "") + Decimal(secs)
  }

  /**
   * For a non-negative time, the minutes and the seconds field split the
   * whole seconds: `mins * 60 + secs` is `floor(seconds)` with `secs` in [0, 59].
   */
  lemma ClockSplit(seconds: real)
    requires seconds >= 0.0
    ensures var mins, secs := (seconds / 60.0).Floor, Rem60(seconds).Floor;
      mins >= 0 && 0 <= secs < 60 && mins * 60 + secs == seconds.Floor
  {
    var m := (seconds / 60.0).Floor;
    assert (m as real) <= seconds / 60.0 < (m as real) + 1.0;
    assert 60.0 * (m as real) <= seconds < 60.0 * (m as real) + 60.0;
    var r := Rem60(seconds);
    assert r == seconds - 60.0 * (m as real);
    var secs := r.Floor;
    assert 0 <= secs < 60;
    var f := seconds.Floor;
    assert (f as real) <= seconds < (f as real) + 1.0;
    assert ((m * 60 + secs) as real) <= seconds < ((m * 60 + secs) as real) + 1.0;
  }

  /**
   * Reads `M:SS` back: digits, a colon, exactly two digits; the value is
   * minutes times 60 plus seconds.
   */
  function ParseClock(t: string): (r: Option<nat>)
    ensures r.Some? ==> exists k :: 0 < k && k + 3 == |t| && t[k] == ':'
  {
    var k := DigitPrefixLength(t, 10);
    if k == 0 || k + 3 != |t| || t[k] != ':' || !AllDigits(t[k + 1..], 10) then None
    else Some(ValueOf(t[..k], 10) * 60 + ValueOf(t[k + 1..], 10))
  }

  /**
   * The clock of a non-negative time reads back as its whole seconds: the
   * seconds field is always two digits and the minutes field exact.
   */
  lemma FormatTimeRoundTrip(seconds: real)
    requires seconds >= 0.0
    ensures ParseClock(FormatTime(seconds)) == Some(seconds.Floor)
  {
    ClockSplit(seconds);
    ClockRoundTrip((seconds / 60.0).Floor, Rem60(seconds).Floor);
  }

  /** A clock with whole minutes and seconds in [0, 59] reads back as minutes times 60 plus seconds. */
  lemma ClockRoundTrip(mins: nat, secs: int)
    requires 0 <= secs < 60
    ensures ParseClock(Clock(mins, secs)) == Some(mins * 60 + secs)
  {
    var field := (if secs < 10 then "0" else "") + Decimal(secs);
    assert Decimal(mins) == ToRadix(mins, 10);
    assert Clock(mins, secs) == ToRadix(mins, 10) + ":" + field;
    TwoDigitField(secs);
    ParseClockOf(mins, field);
  }

  /** Minutes, a colon and a two-digit field read back as minutes times 60 plus the field. */
  lemma ParseClockOf(mins: nat, field: string)
    requires |field| == 2 && AllDigits(field, 10)
    ensures ParseClock(ToRadix(mins, 10) + ":" + field) == Some(mins * 60 + ValueOf(field, 10))
  {
    var minutes := ToRadix(mins, 10);
    var t := minutes + ":" + field;
    assert t == minutes + (":" + field);
    DigitsThenStop(minutes, ":" + field, 10);
    var k := |minutes|;
    assert t[..k] == minutes && t[k] == ':' && t[k + 1..] == field;
    ValueOfToRadix(mins, 10);
  }

  /** The seconds field: two decimal digits whose value is the seconds. */
  lemma TwoDigitField(secs: int)
    requires 0 <= secs < 60
    ensures var field := (if secs < 10 then "0" else "") + Decimal(secs);
      |field| == 2 && AllDigits(field, 10) && ValueOf(field, 10) == secs
  {
    var field := (if secs < 10 then "0" else "") + Decimal(secs);
    if secs < 10 {
      assert field == [DigitChar(0), DigitChar(secs)];
    } else {
      assert ToRadix(secs / 10, 10) == [DigitChar(secs / 10)];
      assert field == [DigitChar(secs / 10), DigitChar(secs % 10)];
    }
    assert field[..1] == [field[0]] && field[..1][..0] == [];
    assert ValueOf(field[..1], 10) == DigitValue(field[0]).value;
    assert ValueOf(field, 10) == ValueOf(field[..1], 10) * 10 + DigitValue(field[1]).value;
  }

  /** The digit prefix of digits followed by a non-digit is exactly those digits. */
  lemma {:induction false} DigitsThenStop(digits: string, rest: string, radix: nat)
    requires AllDigits(digits, radix) && rest != [] && !IsDigit(rest[0], radix)
    ensures DigitPrefixLength(digits + rest, radix) == |digits|
    decreases |digits|
  {
    var s := digits + rest;
    if digits != [] {
      var tail := digits[1..];
      assert AllDigits(tail, radix) by {
        forall i | 0 <= i < |tail|
          ensures IsDigit(tail[i], radix)
        {
          assert tail[i] == digits[i + 1];
        }
      }
      assert s[0] == digits[0] && IsDigit(s[0], radix);
      assert s[1..] == tail + rest;
      DigitsThenStop(tail, rest, radix);
    } else {
      assert s == rest;
    }
  }

  // ---------------------------------------------------------------------
  // The volume icon

  datatype VolumeIcon = Muted | Low | Medium | High

  /** The icon shown for a volume: muted at exactly 0, then thresholds at 0.3 and 0.7. */
  function IconFor(volume: real): VolumeIcon
  {
    if volume == 0.0 then Muted
    else if volume < 0.3 then Low
    else if volume < 0.7 then Medium
    else High
  }

  /** How loud an icon looks. */
  function Loudness(icon: VolumeIcon): nat
  {
    match icon
    case Muted => 0
    case Low => 1
    case Medium => 2
    case High => 3
  }

  /**
   * On the slider's range the icon only gets louder as the volume rises, and
   * it is muted exactly at 0.
   */
  lemma IconMonotone(v: real, w: real)
    requires 0.0 <= v <= w
    ensures Loudness(IconFor(v)) <= Loudness(IconFor(w))
    ensures IconFor(v) == Muted <==> v == 0.0
  {
  }

  /** A negative volume, which the slider cannot produce, would show the low icon. */
  lemma NegativeVolumeIsLow(v: real)
    requires v < 0.0
    ensures IconFor(v) == Low
  {
  }

  // ---------------------------------------------------------------------
  // The text colour

  /**
   * `textColor`: black when the digits after the first character, read as
   * hex, exceed `0xffffff / 2`; white otherwise, for an empty colour, and when
   * nothing can be read (NaN compares false).
   */
  function ContrastText(color: string): (t: string)
    ensures t == "#000" || t == "#fff"
    ensures color == "" ==> t == "#fff"
  {
    if color == "" then "#fff"
    else
      match ParseIntPrefix(color[1..], 16)
      case None => "#fff"
      case Some(v) => if 2 * v > 0xffffff then "#000" else "#fff"
  }

  /** The six digits of a hex colour, read as one number, are its three channels. */
  lemma HexColorValue(c: string)
    requires ColorExtractor.IsHexColor(c)
    ensures ParseIntPrefix(c[1..], 16) ==
      Some(ColorExtractor.Channel(c, 0) * 65536 + ColorExtractor.Channel(c, 1) * 256 + ColorExtractor.Channel(c, 2))
  {
    var d := c[1..];
    ParseIntOfDigits(d, 16);
    assert d[..6] == d;
    assert d[..6][..5] == d[..5];
    assert d[..5][..4] == d[..4];
    assert d[..4][..3] == d[..3];
    assert d[..3][..2] == d[..2];
    assert d[..2][..1] == d[..1];
    assert d[..1][..0] == [];
    assert d[0] == c[1] && d[1] == c[2] && d[2] == c[3] && d[3] == c[4];
    assert ValueOf(d[..1], 16) == DigitValue(c[1]).value;
    assert ValueOf(d[..2], 16) == ValueOf(d[..1], 16) * 16 + DigitValue(c[2]).value;
    assert ValueOf(d[..2], 16) == ColorExtractor.Channel(c, 0);
    assert ValueOf(d[..4], 16) == ColorExtractor.Channel(c, 0) * 256 + ColorExtractor.Channel(c, 1);
  }

  /** On a well-formed `#rrggbb` the rule looks at the red channel only: black text exactly when red is at least 128. */
  lemma ContrastByRed(c: string)
    requires ColorExtractor.IsHexColor(c)
    ensures ContrastText(c) == "#000" <==> ColorExtractor.Channel(c, 0) >= 128
  {
    HexColorValue(c);
  }

  /**
   * The controls and the palette can disagree: `#7fffff` is light by the
   * palette's luma but gets white text here, and `#800000` is dark there
   * but gets black text here.
   */
  lemma ContrastDisagreesWithPalette()
    ensures ColorExtractor.IsHexColor("#7fffff") && ColorExtractor.IsHexColor("#800000")
    ensures ContrastText("#7fffff") == "#fff" && ColorExtractor.GenerateColorPalette("#7fffff").isLight
    ensures ContrastText("#800000") == "#000" && !ColorExtractor.GenerateColorPalette("#800000").isLight
  {
    Format7fffff();
    Format800000();
    ColorExtractor.FormatColorRoundTrip(127, 255, 255);
    ColorExtractor.FormatColorRoundTrip(128, 0, 0);
    ColorExtractor.PaletteOfBytes(127, 255, 255);
    ColorExtractor.PaletteOfBytes(128, 0, 0);
    ContrastByRed("#7fffff");
    ContrastByRed("#800000");
  }

  lemma Format7fffff()
    ensures ColorExtractor.FormatColor(127, 255, 255) == "#7fffff"
  {
    assert Hex2(127) == "7f" && Hex2(255) == "ff";
  }

  lemma Format800000()
    ensures ColorExtractor.FormatColor(128, 0, 0) == "#800000"
  {
    assert Hex2(128) == "80" && Hex2(0) == "00";
  }
}

=== FILE: spotify_auth.dfy ===
/**
 * The PKCE helpers of the Spotify sign-in: turning standard base64 into the
 * unpadded base64url form (section 5 of RFC 4648, Appendix A of RFC 7636),
 * the code verifier and code challenge built with it, and the guard that
 * refuses a callback when no code verifier was stored.
 *
 * Random bytes, UTF-8 encoding, SHA-256, `btoa` and the token exchange are
 * passed in as functions; of `btoa` only the length, the `=` padding and
 * the alphabet section 4 of RFC 4648 gives its output are assumed.
 */
module SpotifyAuth {
  import opened Wrappers
  import opened Numerals
  import opened Types

  /** The standard base64 alphabet (section 4 of RFC 4648), pad character excluded. */
  predicate IsBase64Char(c: char)
  {
    'A' <= c <= 'Z' || 'a' <= c <= 'z' || '0' <= c <= '9' || c == '+' || c == '/'
  }

  /** The URL- and filename-safe alphabet (section 5 of RFC 4648). */
  predicate IsBase64UrlChar(c: char)
  {
    'A' <= c <= 'Z' || 'a' <= c <= 'z' || '0' <= c <= '9' || c == '-' || c == '_'
  }

  /** The unreserved characters a code verifier may use (section 4.1 of RFC 7636). */
  predicate IsUnreserved(c: char)
  {
    'A' <= c <= 'Z' || 'a' <= c <= 'z' || '0' <= c <= '9' || c == '-' || c == '.' || c == '_' || c == '~'
  }

  /** A code verifier as section 4.1 of RFC 7636 defines it: 43 to 128 unreserved characters. */
  predicate IsCodeVerifier(v: string)
  {
    43 <= |v| <= 128 && forall i :: 0 <= i < |v| ==> IsUnreserved(v[i])
  }

  /** The number of `=` characters that close the encoding of `n` bytes. */
  function PadCount(n: nat): (p: nat)
    ensures p < 3
  {
    (3 - n % 3) % 3
  }

  /**
   * What the base64 encoding of `n` bytes looks like: four characters per
   * started group of three bytes, the last `PadCount(n)` of them `=`, the
   * others from the standard alphabet.
   */
  predicate Base64Shaped(n: nat, s: string)
  {
    && |s| == 4 * ((n + 2) / 3)
    && (forall i :: 0 <= i < |s| - PadCount(n) ==> IsBase64Char(s[i]))
    && (forall i :: |s| - PadCount(n) <= i < |s| ==> s[i] == '=')
  }

  /** `s.replace(/x/g, y)` for a single character `x`. */
  function ReplaceAll(s: string, from: char, to: char): (r: string)
    ensures |r| == |s|
    ensures forall i :: 0 <= i < |s| ==> r[i] == (if s[i] == from then to else s[i])
  {
    if s == [] then [] else [if s[0] == from then to else s[0]] + ReplaceAll(s[1..], from, to)
  }

  /** `s.replace(/c+$/, '')`: drop the run of `c` that ends the string. */
  function TrimTrailing(s: string, c: char): (r: string)
    ensures |r| <= |s| && r == s[..|r|]
    ensures forall i :: |r| <= i < |s| ==> s[i] == c
    ensures r == [] || r[|r| - 1] != c
  {
    if s != [] && s[|s| - 1] == c then TrimTrailing(s[..|s| - 1], c) else s
  }

  /** The character base64url uses in place of a standard base64 character. */
  function UrlChar(c: char): char
  {
    if c == '+' then '-' else if c == '/' then '_' else c
  }

  /** The `replace` chain of `generateCodeVerifier` and `generateCodeChallenge`. */
  function Base64Url(s: string): string
  {
    TrimTrailing(ReplaceAll(ReplaceAll(s, '+', '-'), '/', '_'), '=')
  }

  /**
   * The rewrite, character by character: every kept character is the
   * base64url counterpart of the one at the same position, what is dropped
   * is a run of `=` at the end, and the result has no `+`, no `/` and no
   * final `=`.
   */
  lemma Base64UrlChars(s: string)
    ensures var r := Base64Url(s);
      && |r| <= |s|
      && (forall i :: 0 <= i < |r| ==> r[i] == UrlChar(s[i]))
      && (forall i :: |r| <= i < |s| ==> s[i] == '=')
      && (r == [] || r[|r| - 1] != '=')
      && '+' !in r && '/' !in r
  {
    var u := ReplaceAll(s, '+', '-');
    var t := ReplaceAll(u, '/', '_');
    var r := TrimTrailing(t, '=');
    forall i | 0 <= i < |s|
      ensures t[i] == UrlChar(s[i])
    {
      assert u[i] == (if s[i] == '+' then '-' else s[i]);
    }
    forall i | 0 <= i < |r|
      ensures r[i] == UrlChar(s[i]) && r[i] != '+' && r[i] != '/'
    {
      assert r[i] == t[i];
    }
    forall i | |r| <= i < |s|
      ensures s[i] == '='
    {
      assert t[i] == '=';
    }
  }

  /** Replacing a character that does not occur changes nothing. */
  lemma {:induction false} ReplaceAbsent(s: string, from: char, to: char)
    requires from !in s
    ensures ReplaceAll(s, from, to) == s
    decreases |s|
  {
    if s != [] {
      assert s[0] != from;
      ReplaceAbsent(s[1..], from, to);
    }
  }

  /** Running the rewrite on its own output changes nothing. */
  lemma Base64UrlIdempotent(s: string)
    ensures Base64Url(Base64Url(s)) == Base64Url(s)
  {
    var r := Base64Url(s);
    Base64UrlChars(s);
    ReplaceAbsent(r, '+', '-');
    ReplaceAbsent(r, '/', '_');
  }

  /**
   * On the encoding of `n` bytes the rewrite removes exactly the padding
   * and leaves only base64url characters.
   */
  lemma Base64UrlOfShaped(n: nat, s: string)
    requires Base64Shaped(n, s)
    ensures |Base64Url(s)| == |s| - PadCount(n)
    ensures forall i :: 0 <= i < |Base64Url(s)| ==> IsBase64UrlChar(Base64Url(s)[i])
  {
    var r := Base64Url(s);
    var keep := |s| - PadCount(n);
    Base64UrlChars(s);
    assert keep <= |r| by {
      if n > 0 {
        assert IsBase64Char(s[keep - 1]) && s[keep - 1] != '=';
      }
    }
    assert |r| <= keep by {
      if |r| > 0 {
        assert r[|r| - 1] == UrlChar(s[|r| - 1]) != '=';
        assert s[|r| - 1] != '=';
      }
    }
    forall i | 0 <= i < |r|
      ensures IsBase64UrlChar(r[i])
    {
      assert IsBase64Char(s[i]);
    }
  }

  /**
   * `generateCodeVerifier`: 128 random bytes, base64-encoded and rewritten.
   * The result is 171 base64url characters.
   */
  function GenerateCodeVerifier(random: seq<Byte>, btoa: seq<Byte> -> string): (v: string)
    requires |random| == 128
    requires Base64Shaped(|random|, btoa(random))
    ensures |v| == 171
    ensures forall i :: 0 <= i < |v| ==> IsBase64UrlChar(v[i]) && IsUnreserved(v[i])
  {
    var encoded := btoa(random);
    EncodedLengths();
    Base64UrlOfShaped(128, encoded);
    UrlCharsAreUnreserved(Base64Url(encoded));
    Base64Url(encoded)
  }

  /** The verifier `generateCodeVerifier` produces is longer than section 4.1 of RFC 7636 allows. */
  lemma VerifierTooLong(random: seq<Byte>, btoa: seq<Byte> -> string)
    requires |random| == 128
    requires Base64Shaped(|random|, btoa(random))
    ensures !IsCodeVerifier(GenerateCodeVerifier(random, btoa))
    ensures |GenerateCodeVerifier(random, btoa)| > 128
  {
  }

  /**
   * The verifier built from 96 random bytes instead: exactly 128 characters,
   * the longest section 4.1 of RFC 7636 allows.
   */
  function GenerateConformingVerifier(random: seq<Byte>, btoa: seq<Byte> -> string): (v: string)
    requires |random| == 96
    requires Base64Shaped(|random|, btoa(random))
    ensures |v| == 128
    ensures IsCodeVerifier(v)
  {
    var encoded := btoa(random);
    EncodedLengths();
    Base64UrlOfShaped(96, encoded);
    UrlCharsAreUnreserved(Base64Url(encoded));
    Base64Url(encoded)
  }

  /**
   * `generateCodeChallenge`: the SHA-256 digest (32 bytes) of the UTF-8
   * verifier, base64-encoded and rewritten. The result is 43 base64url
   * characters, as section 4.2 of RFC 7636 expects for S256.
   */
  function GenerateCodeChallenge(
    verifier: string,
    utf8: string -> seq<Byte>,
    sha256: seq<Byte> -> seq<Byte>,
    btoa: seq<Byte> -> string): (c: string)
    requires |sha256(utf8(verifier))| == 32
    requires Base64Shaped(32, btoa(sha256(utf8(verifier))))
    ensures |c| == 43
    ensures forall i :: 0 <= i < |c| ==> IsBase64UrlChar(c[i])
  {
    var encoded := btoa(sha256(utf8(verifier)));
    EncodedLengths();
    Base64UrlOfShaped(32, encoded);
    Base64Url(encoded)
  }

  /** Encoded and padding lengths of the three byte counts used here. */
  lemma EncodedLengths()
    ensures 4 * ((128 + 2) / 3) == 172 && PadCount(128) == 1
    ensures 4 * ((96 + 2) / 3) == 128 && PadCount(96) == 0
    ensures 4 * ((32 + 2) / 3) == 44 && PadCount(32) == 1
  {
  }

  /** Every base64url character is one a code verifier may use. */
  lemma UrlCharsAreUnreserved(v: string)
    requires forall i :: 0 <= i < |v| ==> IsBase64UrlChar(v[i])
    ensures forall i :: 0 <= i < |v| ==> IsUnreserved(v[i])
  {
  }

  // ---------------------------------------------------------------------
  // The callback

  const NoVerifierMessage: string := "No verifier found in cache - can't validate query string callback parameters."

  /** The body of the token request: the authorization code and the stored verifier. */
  datatype TokenRequest = TokenRequest(code: string, codeVerifier: string)

  /** What a successful callback hands back. */
  datatype Login = Login(user: SpotifyUser, accessToken: string)

  /** The token requests a callback sends (zero or one) and how it ends. */
  datatype CallbackRun = CallbackRun(requests: seq<TokenRequest>, outcome: Result<Login, string>)

  /**
   * `handleAuthCallback(code)`. `storedVerifier` is what session storage holds
   * under the verifier key; `exchange` stands for the token request, the
   * profile fetch and everything they can throw.
   */
  function HandleAuthCallback(
    code: string,
    storedVerifier: Option<string>,
    exchange: TokenRequest -> Result<Login, string>): (run: CallbackRun)
    ensures run.requests == [] <==> storedVerifier.None? || storedVerifier.value == ""
    ensures run.requests == [] ==> run.outcome == Err(NoVerifierMessage)
    ensures run.requests != [] ==>
      run.requests == [TokenRequest(code, storedVerifier.value)] && run.outcome == exchange(run.requests[0])
  {
    if storedVerifier.None? || storedVerifier.value == "" then
      CallbackRun([], Err(NoVerifierMessage))
    else
      var request := TokenRequest(code, storedVerifier.value);
      CallbackRun([request], exchange(request))
  }
}

=== FILE: types.dfy ===
/**
 * The records the player and the sign-in flow pass around. Only the fields
 * the modelled code reads or compares are kept.
 */
module Types {
  import opened Wrappers

  /** A track; the player only stores, compares (by `id`) and forwards it. */
  datatype SpotifyTrack = SpotifyTrack(id: string)

  /** The signed-in user's profile, which the sign-in flow only stores. */
  datatype SpotifyUser = SpotifyUser(id: string)

  /** The sign-in state kept by the auth context; `None` stands for `null`. */
  datatype AuthState = AuthState(
    isAuthenticated: bool,
    user: Option<SpotifyUser>,
    accessToken: Option<string>,
    loading: bool,
    error: Option<string>)
}
